=== FILE: README.md ===
# semiperm-backend authentication and store bookmarks, modelled in Dafny

This project models the core of a Spring Boot backend. Users sign in through
Kakao or Naver OAuth2. The backend issues its own HS256 JSON Web Tokens. A
signed-in member can bookmark a place, which the code calls a "zzim".

The model covers these parts:

- **`JwtTokenProvider`** (`jwt_token_provider.dfy`). The constructor derives
  the HMAC key from the bytes `DatatypeConverter.parseBase64Binary` decodes the
  configured secret to (`datatype_converter.dfy`), and turns the configured
  validities into milliseconds. Access and refresh tokens are
  created with `memberId` and `accountId` claims and an `exp` claim.
  `validateToken` maps the parser's failures onto error codes. The claim
  getters read `memberId` and `accountId` back as text. `getAuthentication`
  builds the Spring `Authentication`. The two static context accessors parse
  ids with `Long.valueOf`. `reissueTokens` stores the new refresh token on the
  account.
- **The jjwt parser** (`jwt.dfy`). Tokens are abstract values: signed with a
  key, unsigned, or unparseable text. `ParseClaimsJws` gives jjwt 0.11's
  outcomes in jjwt's own order:
  1. blank input: an `IllegalArgumentException`, which `validateToken` does not catch;
  2. malformed input;
  3. for a signed token, its header's `alg`, looked up with
     `SignatureAlgorithm.forName` ignoring case:
     - an absent, blank or `none` algorithm is malformed;
     - a name no algorithm has is a `SignatureException`;
     - an RSA, EC or PSS algorithm cannot be checked with the HMAC
       `SecretKeySpec`, which jjwt reports as unsupported;
  4. a wrong signature;
  5. expiry;
  6. an unsigned token.

  `exp` holds whole seconds. jjwt compares it to the clock as `exp * 1000` in
  Java `long` arithmetic.
- **The social load strategies** (`social_load.dfy`):
  - `prepareRequest` puts in the bearer header;
  - `sendRequestToSocialApi` reads the response body;
  - `makeOAuth2User` walks the provider's JSON;
  - `makeAccount` builds the account.

  Java's `NullPointerException` and `ClassCastException` are modelled as error
  values, in the order the code reads fields. Kakao's strategy has no guard
  for a null body. Naver's strategy turns one into `LoginDisableException`.
- **`OAuth2SuccessHandler.onAuthenticationSuccess`** (`oauth2_success_handler.dfy`).
  It handles three cases and runs as a transaction:
  - no account: an account is created, and its id is reported;
  - `memberYn == YES`: tokens are issued for the member, and the account records the refresh token;
  - `memberYn == NO`: the existing account id is reported.

  When the flag is unset, no branch runs and the body stays empty. A thrown
  `NotFoundException` rolls the transaction back, so a failure carries no state.
- **`StoreService`** (`store_service.dfy`):
  - `create` Base64-encodes the place id's UTF-8 bytes (`utf8.dfy`,
    `base64.dfy`, section 4 of RFC 4648). It finds or creates the store,
    rejects a duplicate bookmark, saves the new one and appends it to the
    member's and the store's lists.
  - `find` lists a member's bookmarks.

Supporting modules hold the Java semantics the code relies on:

- `java_long.dfy`: `long` wrap-around, truncating division, `Long.toString`
  and `Long.valueOf`;
- `json.dfy`: Jackson's `Map<String, Object>` values, `Object.toString` and
  casts;
- `domain.dfy`: the entities and error codes;
- `datatype_converter.dfy`: the lenient Base64 decoder of
  `javax.xml.bind.DatatypeConverter`, which skips characters outside the
  alphabet and drops a trailing partial group;
- `wrappers.dfy`: `Option` and `Result`.

The clock, the HTTP exchange and the repositories are explicit parameters or
state values: `now` readings in milliseconds, response bodies, and
`AuthState` / `StoreState` maps.

Some source behaviour is kept as written:

- The validity properties are named `...-validity-sec`, but the constructor
  multiplies them by 60000, so they are treated as minutes.
- `getAuthentication` parses the token twice, once per claim, and each parse
  reads the clock. The model takes both readings, so the token can expire
  between them.
- The handler calls `createAccessToken(memberId)` and
  `createRefreshToken(memberId)`. `JwtTokenProvider` declares only the
  `(Member, Account)` overloads, so the handler's call is modelled as the
  two-argument overload, with the account that was looked up.

## Model

| member | source | states |
|---|---|---|
| JwtTokenProvider.NewProvider | src/main/java/com/project/semipermbackend/auth/jwt/JwtTokenProvider.java:43-51 | the key holds exactly the bytes parseBase64Binary decodes the configured secret to; each validity is the configured amount times 60 * 1000 ms when that fits in a long; otherwise it is the long that product wraps to, the unique long congruent to it modulo 2^64 |
| JwtTokenProvider.CreateToken | src/main/java/com/project/semipermbackend/auth/jwt/JwtTokenProvider.java:66-87 | the token is signed with the provider's key and carries the JWT/HS256 header; its claims hold exactly memberId and accountId with the given values; its exp is the expiry in milliseconds (now + the validity chosen by token type, wrapped to a long) divided by 1000 truncating toward zero: for a non-negative expiry, exp * 1000 is at most it and within a second below it; for a negative one, exp * 1000 is at least it and within a second above it |
| JwtTokenProvider.ValidateToken | src/main/java/com/project/semipermbackend/auth/jwt/JwtTokenProvider.java:91-106 | succeeds iff the parser accepts the token; TOKEN_EXPIRED_ERROR iff the parser reports expiry, UNSUPPORTED_TOKEN_ERROR iff it reports an unsupported token (unsigned, or signed under an RSA, EC or PSS header), JWT_ERROR iff it reports a malformed token (including a signed one with no algorithm or `none`) or a signature failure (an unknown algorithm or another key), and the uncaught IllegalArgument iff the text is blank |
| Jwt.ParseClaimsJws | src/main/java/com/project/semipermbackend/auth/jwt/JwtTokenProvider.java:108-111 | the claims come back iff the token is signed with the parser's key under an HMAC `alg` header and is not past exp * 1000; each of the five failures holds iff its own condition holds and no earlier check failed, in jjwt's checking order: blank; malformed text or a signed header with no algorithm; an unknown algorithm or another key; expiry; an unsigned token or an asymmetric algorithm |
| JwtTokenProvider.ClaimText | src/main/java/com/project/semipermbackend/auth/jwt/JwtTokenProvider.java:113-118 | a claim's text is returned iff the token parses and the claim is present, and it is the claim's Java toString; an absent claim is a null dereference |
| JwtTokenProvider.GetAuthentication | src/main/java/com/project/semipermbackend/auth/jwt/JwtTokenProvider.java:125-129 | succeeds iff the token parses at both clock readings, both claims are non-null and the member id text is non-empty; the member id is read at the first reading and the account id at the second; the principal is a User named by the memberId claim with an empty password and no authorities, and the credentials are the accountId claim text |
| JwtTokenProvider.MemberIdFromContext | src/main/java/com/project/semipermbackend/auth/jwt/JwtTokenProvider.java:131-135 | a UserDetails principal whose username Long.valueOf accepts gives exactly that long, and nothing else gives a value; a missing authentication is a null dereference, another principal class a cast failure, and an unparsable username the NumberFormatException Long.valueOf raises |
| JwtTokenProvider.AccountIdFromContext | src/main/java/com/project/semipermbackend/auth/jwt/JwtTokenProvider.java:136-139 | String credentials that Long.valueOf accepts give exactly that long, and nothing else gives a value; a missing authentication is a null dereference, null credentials fail in Long.valueOf, other credential classes are a cast failure, and unparsable text gives Long.valueOf's NumberFormatException |
| JwtTokenProvider.ReissueTokens | src/main/java/com/project/semipermbackend/auth/jwt/JwtTokenProvider.java:141-148 | the returned pair is an access and a refresh token for the member and account; the account afterwards stores exactly the returned refresh token, and nothing else about it changes |
| JwtTokenProvider.IssuedTokenRoundTrip | src/main/java/com/project/semipermbackend/auth/jwt/JwtTokenProvider.java:66-118 | a token issued by the provider, read before it expires, parses, validates, and yields the decimal text of the member id and account id it was issued for |
| JwtTokenProvider.IssuedTokenExpires | src/main/java/com/project/semipermbackend/auth/jwt/JwtTokenProvider.java:77-96 | once the clock passes the issue time plus the validity, the issued token fails validation with TOKEN_EXPIRED_ERROR |
| JwtTokenProvider.ForeignTokenRejected | src/main/java/com/project/semipermbackend/auth/jwt/JwtTokenProvider.java:102-105 | a token signed with a different key is rejected with JWT_ERROR, whatever the time |
| JwtTokenProvider.AccessAndRefreshDifferOnlyInExpiry | src/main/java/com/project/semipermbackend/auth/jwt/JwtTokenProvider.java:58-78 | access and refresh tokens for the same member and account share key, header and claims and differ at most in exp |
| JwtTokenProvider.ContextRoundTrip | src/main/java/com/project/semipermbackend/auth/jwt/JwtTokenProvider.java:125-139 | the Authentication built from an issued token that is live at both clock readings, put in the security context, gives back exactly the member id and account id through the two static accessors |
| JwtTokenProvider.CreateAccessToken | src/main/java/com/project/semipermbackend/auth/jwt/JwtTokenProvider.java:58-60 | the token is signed with the provider's key, carries the memberId and accountId claims of the given ids, and its exp is now plus the access validity, wrapped to a long, in seconds truncated toward zero: within a second below a non-negative expiry and within a second above a negative one |
| JwtTokenProvider.CreateRefreshToken | src/main/java/com/project/semipermbackend/auth/jwt/JwtTokenProvider.java:62-64 | the token is signed with the provider's key, carries the memberId and accountId claims of the given ids, and its exp is now plus the refresh validity, wrapped to a long, in seconds truncated toward zero: within a second below a non-negative expiry and within a second above a negative one |
| JwtTokenProvider.MemberIdFromToken | src/main/java/com/project/semipermbackend/auth/jwt/JwtTokenProvider.java:113-115 | the memberId text comes back iff the token parses and the claim is non-null, and it is the claim's toString; a parser failure is passed on unchanged |
| JwtTokenProvider.AccountIdFromToken | src/main/java/com/project/semipermbackend/auth/jwt/JwtTokenProvider.java:116-118 | the accountId text comes back iff the token parses and the claim is non-null, and it is the claim's toString; a parser failure is passed on unchanged |
| JwtTokenProvider.ExpiryBetweenReads | src/main/java/com/project/semipermbackend/auth/jwt/JwtTokenProvider.java:125-129 | when the token expires between the two clock readings, the member id is still read but getAuthentication fails with the expiry |
| JwtTokenProvider.ReissuedTokensIdentifyAccount | src/main/java/com/project/semipermbackend/auth/jwt/JwtTokenProvider.java:141-148 | both reissued tokens validate while live and read back the member's and the account's ids, and the account stores the returned refresh token |
| JwtTokenProvider.SameSecretBytesShareTokens | src/main/java/com/project/semipermbackend/auth/jwt/JwtTokenProvider.java:43-56 | two secrets that decode to the same bytes build the same provider, so a token signed under one validates under the other (for keys jjwt accepts for HS256; see Left out) |
| JwtTokenProvider.SpacedSecretSameKey | src/main/java/com/project/semipermbackend/auth/jwt/JwtTokenProvider.java:53-56 | the secrets "c2VjcmV0" and "c2Vj cmV0" build the same provider, because the decoder skips the space; the 6-byte key is one `SecretKeySpec` accepts but jjwt refuses to sign with |
| DatatypeConverter.SkippedCharacterIgnored | src/main/java/com/project/semipermbackend/auth/jwt/JwtTokenProvider.java:54 | a character outside the Base64 alphabet and not '=' can be removed anywhere from the text without changing the decoded bytes |
| DatatypeConverter.EncodedSecretDecodes | src/main/java/com/project/semipermbackend/auth/jwt/JwtTokenProvider.java:54 | on padded RFC 4648 Base64 text, the lenient decoder gives back exactly the encoded bytes |
| DatatypeConverter.SecretExample | src/main/java/com/project/semipermbackend/auth/jwt/JwtTokenProvider.java:54 | "c2VjcmV0" decodes to the bytes of "secret" |
| OAuth2SuccessHandler.GetMemberByAccount | src/main/java/com/project/semipermbackend/auth/security/filter/OAuth2SuccessHandler.java:84-85 | a member is found iff one is stored for the account's id, and it is that member; under the invariant it belongs to that account |
| OAuth2SuccessHandler.IsPresentAndMember | src/main/java/com/project/semipermbackend/auth/security/filter/OAuth2SuccessHandler.java:116-118 | true only for a present account whose flag is set |
| OAuth2SuccessHandler.IsPresentButNotMember | src/main/java/com/project/semipermbackend/auth/security/filter/OAuth2SuccessHandler.java:120-122 | true only for a present account whose flag is set and which is not a member |
| OAuth2SuccessHandler.FlagChecksPartition | src/main/java/com/project/semipermbackend/auth/security/filter/OAuth2SuccessHandler.java:116-122 | for a present account, the member check holds iff the flag is YES, the not-member check iff it is NO, neither iff it is unset, and never both |
| Domain.Account.Login | src/main/java/com/project/semipermbackend/auth/security/filter/OAuth2SuccessHandler.java:100 | the account records the given refresh token and nothing else about it changes |
| StoreService.EncodePlaceId | src/main/java/com/project/semipermbackend/store/service/StoreService.java:36 | the store key is the one Base64 text that decodes to the place id's UTF-8 bytes, and those bytes decode back to the place id |
| Jwt.ForName | src/main/java/com/project/semipermbackend/auth/jwt/JwtTokenProvider.java:108-111 | the algorithm returned has the header text as its value ignoring case, and none is returned exactly when no algorithm's value equals the text ignoring case |
| Jwt.NamesDistinct | src/main/java/com/project/semipermbackend/auth/jwt/JwtTokenProvider.java:108-111 | no text equals the values of two different algorithms ignoring case, so the lookup has at most one answer |
| Jwt.CheckHeader | src/main/java/com/project/semipermbackend/auth/jwt/JwtTokenProvider.java:108-111 | a signed token's header is classed as having no algorithm iff alg is blank or equals none ignoring case, as unknown iff it has text but names no algorithm, as HMAC iff it names HS256, HS384 or HS512, and as asymmetric iff it names another algorithm |
| JwtTokenProvider.IssuedHeaderIsHmac | src/main/java/com/project/semipermbackend/auth/jwt/JwtTokenProvider.java:71-84 | the header every issued token carries names an HMAC algorithm |
| JwtTokenProvider.AsymmetricHeaderUnsupported | src/main/java/com/project/semipermbackend/auth/jwt/JwtTokenProvider.java:91-106 | a signed token with an RSA, EC or PSS header gives UNSUPPORTED_TOKEN_ERROR whatever its key and the time |
| JwtTokenProvider.NoneHeaderRejected | src/main/java/com/project/semipermbackend/auth/jwt/JwtTokenProvider.java:91-106 | a signed token whose alg is none, NONE or blank gives JWT_ERROR even on a live token under the provider's key |
| JwtTokenProvider.UnknownAlgorithmRejected | src/main/java/com/project/semipermbackend/auth/jwt/JwtTokenProvider.java:91-106 | a signed token whose alg names no algorithm gives JWT_ERROR |
| JwtTokenProvider.LowerCaseAlgorithmAccepted | src/main/java/com/project/semipermbackend/auth/jwt/JwtTokenProvider.java:91-106 | a live token headed hs256 and signed with the provider's key validates, since the algorithm is matched ignoring case |
| Base64.DecodeCanonical | src/main/java/com/project/semipermbackend/store/service/StoreService.java:36 | text the strict decoder accepts is exactly the encoding of the bytes it decodes to |
| Base64.DecodesExactlyEncodings | src/main/java/com/project/semipermbackend/store/service/StoreService.java:36 | a text decodes to a byte sequence iff it is that sequence's encoding |
| JavaLong.DecimalRoundTrip | src/main/java/com/project/semipermbackend/auth/jwt/JwtTokenProvider.java:134 | Long.valueOf of Long.toString of any long is that long |
| JavaLong.ToDecimalInjective | src/main/java/com/project/semipermbackend/auth/jwt/JwtTokenProvider.java:114-117 | two longs render to the same claim text iff they are equal |
| SocialLoad.PrepareRequest | src/main/java/com/project/semipermbackend/auth/service/KakaoLoadStrategy.java:33-39 | the request has no parameters and a single Authorization header, and the bearer credential read back from it is exactly the access token (Naver's prepareRequest at NaverLoadStrategy.java:24-30 is the same) |
| SocialLoad.KakaoUser | src/main/java/com/project/semipermbackend/auth/service/KakaoLoadStrategy.java:52-65 | an identity comes back iff the attributes have a kakao_account object with an email and a profile object with thumbnail_image_url, and a non-null id; the fields are those values' Java toString, and the social type is Kakao |
| SocialLoad.KakaoFetch | src/main/java/com/project/semipermbackend/auth/service/KakaoLoadStrategy.java:42-48 | a null response body dereferences null; otherwise the body goes straight to makeOAuth2User |
| SocialLoad.NaverUser | src/main/java/com/project/semipermbackend/auth/service/NaverLoadStrategy.java:52-60 | an identity comes back iff id, email and profile_image are all non-null; the fields are their toString, and the social type is Naver |
| SocialLoad.NaverFetch | src/main/java/com/project/semipermbackend/auth/service/NaverLoadStrategy.java:36-49 | LoginDisable iff the body is null; otherwise the response object is read: a null response is a null dereference, and a response that is not an object fails the cast |
| SocialLoad.FetchIdentity | src/main/java/com/project/semipermbackend/auth/service/NaverLoadStrategy.java:36-60 | the identity a strategy loads always carries that strategy's social type |
| SocialLoad.MakeAccount | src/main/java/com/project/semipermbackend/auth/service/KakaoLoadStrategy.java:68-75 | the account copies social id, email and profile image from the user and takes the strategy's social type (NaverLoadStrategy.java:63-70 likewise) |
| SocialLoad.KakaoBodyNormalises | src/main/java/com/project/semipermbackend/auth/service/KakaoLoadStrategy.java:52-65 | a well-formed Kakao body, with any nickname, yields its id's decimal text, its email and its thumbnail URL |
| SocialLoad.KakaoExample | src/main/java/com/project/semipermbackend/auth/service/KakaoLoadStrategy.java:52-65 | the body with id 123, email a@b.com and a thumbnail URL yields the identity ("123", "a@b.com", that URL, Kakao) |
| SocialLoad.NaverBodyNormalises | src/main/java/com/project/semipermbackend/auth/service/NaverLoadStrategy.java:36-60 | a well-formed Naver body yields exactly the id, email and profile_image from its response object |
| SocialLoad.NaverIgnoresTopLevelFields | src/main/java/com/project/semipermbackend/auth/service/NaverLoadStrategy.java:48 | only the nested response object is read: top-level id and email do not affect the result |
| SocialLoad.FetchedAccountMatchesIdentity | src/main/java/com/project/semipermbackend/auth/service/NaverLoadStrategy.java:63-70 | the account made from a loaded user has that user's social id, email, image and the strategy's social type |
| OAuth2SuccessHandler.GetAccount | src/main/java/com/project/semipermbackend/auth/security/filter/OAuth2SuccessHandler.java:52 | an account is found iff one is stored under the principal's social id and type, and it is that account |
| OAuth2SuccessHandler.CreateAccount | src/main/java/com/project/semipermbackend/auth/security/filter/OAuth2SuccessHandler.java:59-65 | the new account gets a fresh id and is stored under its social key; members and the other accounts are untouched |
| OAuth2SuccessHandler.OnAuthenticationSuccess | src/main/java/com/project/semipermbackend/auth/security/filter/OAuth2SuccessHandler.java:46-114 | every response is 200 with content type application/json and character encoding UTF-8; for each branch, the exact response body and resulting state: a new account, a failure when a YES account has no member, a login pair with the refresh token recorded, the existing account id for NO, and an empty body when the flag is unset |
| OAuth2SuccessHandler.DraftIsStrategyAccount | src/main/java/com/project/semipermbackend/auth/security/filter/OAuth2SuccessHandler.java:59-64 | the account the handler builds equals the one the principal's provider strategy makes |
| OAuth2SuccessHandler.HandlerPreservesValid | src/main/java/com/project/semipermbackend/auth/security/filter/OAuth2SuccessHandler.java:58-106 | the repository invariant is preserved: accounts are stored under their own social key with distinct ids below the next id, and members are keyed by their account |
| OAuth2SuccessHandler.ExistingAccountNeverReplaced | src/main/java/com/project/semipermbackend/auth/security/filter/OAuth2SuccessHandler.java:80-112 | when the account exists, no account or member is added or removed, and the account changes at most in its refresh token |
| OAuth2SuccessHandler.OneResponsePerBranch | src/main/java/com/project/semipermbackend/auth/security/filter/OAuth2SuccessHandler.java:58-122 | exactly one body is written iff the account is new or its flag is set; a login body is written iff a YES account has a member |
| OAuth2SuccessHandler.LoginTokensIdentifyMember | src/main/java/com/project/semipermbackend/auth/security/filter/OAuth2SuccessHandler.java:82-104 | on a member login the stored refresh token is the returned one, and while live both tokens read back as the member's id and the account's id |
| OAuth2SuccessHandler.SecondLoginFindsCreatedAccount | src/main/java/com/project/semipermbackend/auth/security/filter/OAuth2SuccessHandler.java:52-79 | after a first login creates an account, a second login with the same identity finds it, reports the same account id and changes nothing |
| StoreService.EncodePlaceIdInjective | src/main/java/com/project/semipermbackend/store/service/StoreService.java:36 | two place ids encode to the same Base64 store key iff they are equal |
| Base64.RoundTrip | src/main/java/com/project/semipermbackend/store/service/StoreService.java:36 | decoding the padded Base64 text of any byte sequence gives the bytes back |
| Utf8.RoundTrip | src/main/java/com/project/semipermbackend/store/service/StoreService.java:36 | decoding the UTF-8 bytes of any string of scalar values gives the string back |
| StoreService.CreateOrFindExistingStore | src/main/java/com/project/semipermbackend/store/service/StoreService.java:75-85 | an existing store is returned with nothing changed; otherwise a store with a fresh id, the key and no bookmarks is saved; either way the returned store is the one stored under the key |
| StoreService.CreateOrFindIdempotent | src/main/java/com/project/semipermbackend/store/service/StoreService.java:75-85 | a second call with the same key returns the same store and changes nothing |
| StoreService.AddZzim | src/main/java/com/project/semipermbackend/store/service/StoreService.java:49-56 | the bookmark gets a fresh id, links the member and the store, and is appended to exactly that member's and that store's lists |
| StoreService.Create | src/main/java/com/project/semipermbackend/store/service/StoreService.java:35-57 | an unknown member gives NOT_FOUND_MEMBER; an existing bookmark for the member and the encoded place gives ALREADY_MEMBER_ZZIM_STORE; a success is the found-or-created store with a bookmark added, and the returned id names a bookmark of that member for the store under the encoded place id; on a valid state, a known member without that bookmark always succeeds |
| StoreService.Find | src/main/java/com/project/semipermbackend/store/service/StoreService.java:65-73 | a result comes back iff the member exists, and NOT_FOUND_MEMBER otherwise; the result is exactly the member's bookmarks |
| StoreService.CreatePreservesValid | src/main/java/com/project/semipermbackend/store/service/StoreService.java:41-56 | the store invariant is preserved: keys match stored values, one bookmark per (member, store) pair, and each member's and store's list is exactly its bookmarks |
| StoreService.CreateTwiceRejected | src/main/java/com/project/semipermbackend/store/service/StoreService.java:45-48 | bookmarking the same place twice for a member is rejected with ALREADY_MEMBER_ZZIM_STORE |
| StoreService.CreatedZzimIsFound | src/main/java/com/project/semipermbackend/store/service/StoreService.java:49-73 | a created bookmark is listed by find for its member, with the store of the encoded place id |

## Left out

- The HTTP exchange with Kakao and Naver, the request URLs and methods are left out. The response body is a parameter.
- Key-strength failures are left out, and signature checking is modelled as equality of key bytes. Three failures are missing:
  - `new SecretKeySpec(...)` in `createKey` (JwtTokenProvider.java:55) throws `IllegalArgumentException` when the secret decodes to no bytes, so the provider cannot be built.
  - `signWith(secretKey, signatureAlgorithm)` (JwtTokenProvider.java:84) makes jjwt throw `WeakKeyException` on every `createToken` when the key is shorter than 256 bits.
  - the parser likewise throws `WeakKeyException` when the key is shorter than the header's HMAC algorithm needs: 256, 384 or 512 bits.

  The model signs and verifies with any key. For example, the secret "c2VjcmV0" decodes to 6 bytes: Java builds that key but cannot sign with it.
- Jwt.ParseClaimsJws: a `Signed` token stands for a signature computed with the HMAC variant its header names. A signature made with a different variant than the header states cannot be written as a `Token`; jjwt would reject it as a signature mismatch.
- Jwt.ParseClaimsJws: HMAC pads a key shorter than its block size with zero bytes, so two keys that differ only in trailing zero bytes sign alike. The model treats them as different keys.
- DatatypeConverter.ParseBase64Binary: the library throws `ArrayIndexOutOfBoundsException` for a character at or above U+0080 and when its length guess undersizes the buffer. The model decodes such text instead of failing.
- Jwt.ParseClaimsJws: a token whose signature is valid but whose payload is not a JSON object cannot be written as a `Token`. jjwt rejects such a token with `UnsupportedJwtException`, and the model has no value for that case.
- Token text and its serialisation are left out. Tokens are abstract, and the parser's decisions are modelled without the bytes. There is no clock skew, which the code does not configure.
- Jackson JSON parsing is left out, and so are floating-point numbers and duplicate keys. Lookup returns the first match.
- `Long.valueOf` is modelled on ASCII digits only; Java also accepts other Unicode decimal digits. `HasText` treats only ASCII whitespace and the separators U+001C to U+001F as blank, not Unicode space separators.
- `String.getBytes()` uses the platform default charset. The model assumes UTF-8.
- `String.getBytes` on an unpaired surrogate is left out, because Dafny strings hold scalar values. A null `placeId` is left out too; Java would throw before the member lookup.
- Pagination and sorting in `find` are left out. The model returns the set of the member's bookmarks.
- Logging, `ApiResultDto` wrapping and the Jackson serialisation of responses are left out. A response is its status, content type, encoding and list of result values.
- `Account.java`, `AuthService`, `MemberService`, `Store.java`, `Member.java` and `ZzimStore.java` are not part of this model. `login` and `setLoginStatus` are assumed to store the refresh token and change nothing else. A new account's `memberYn` is assumed to be `NO`. `authService.createAccount` is assumed to save the account under a fresh id and return that id. `Store.create` is assumed to make a store with the key and no bookmarks. `store.addZzimStore` and `member.addZzimStore` are assumed to append the bookmark to their own list and change nothing else.
- Concurrent requests are left out. Two first logins with the same identity at once could both miss the account and both create one; the model handles one request at a time. Accounts are looked up by (socialId, socialType), and members by account.
- `NaverOAuth2UserInfo`'s `getAttributes`, `getAuthorities` and `getName` are left out, because nothing in the core reads them.
- OAuth2SuccessHandler.OnAuthenticationSuccess: the one-argument `createAccessToken(memberId)` and `createRefreshToken(memberId)` the handler calls do not exist. The model uses the `(Member, Account)` overloads.
- JwtTokenProvider.CreateToken: `exp` keeps the truncation to whole seconds, so the contract brackets the wrapped expiry to within a second, on the side truncation toward zero gives, rather than fixing the millisecond.
- JwtTokenProvider.IssuedTokenRoundTrip: the lemma covers reads at least 999 ms before expiry, where truncating exp to seconds cannot make the token expire early. It also requires that the expiry fits in a long and is non-negative.

=== FILE: base64.dfy ===
/** `Base64.getEncoder().encodeToString`: the basic alphabet of section 4 of
    RFC 4648 with `=` padding and no line breaks, and a strict decoder that
    inverts it, rejecting non-zero pad bits (section 3.5 of RFC 4648), so that
    each byte sequence has exactly one text. */
module Base64 {
  import opened Wrappers
  import opened Utf8

  /** The character for a six-bit value: `A`-`Z`, `a`-`z`, `0`-`9`, `+`, `/`. */
  function SextetChar(x: int): (c: char)
    requires 0 <= x < 64
    ensures c != '='
  {
    if x < 26 then (('A' as int) + x) as char
    else if x < 52 then (('a' as int) + x - 26) as char
    else if x < 62 then (('0' as int) + x - 52) as char
    else if x == 62 then '+'
    else '/'
  }

  /** The six-bit value of an alphabet character; `None` outside the alphabet. */
  function SextetValue(c: char): (r: Option<int>)
    ensures r.Some? ==> 0 <= r.value < 64
  {
    if 'A' <= c <= 'Z' then Some((c as int) - ('A' as int))
    else if 'a' <= c <= 'z' then Some((c as int) - ('a' as int) + 26)
    else if '0' <= c <= '9' then Some((c as int) - ('0' as int) + 52)
    else if c == '+' then Some(62)
    else if c == '/' then Some(63)
    else None
  }

  lemma SextetRoundTrip(x: int)
    requires 0 <= x < 64
    ensures SextetValue(SextetChar(x)) == Some(x)
  {
  }

  /** Three bytes as four characters. */
  function EncodeGroup(b0: Byte, b1: Byte, b2: Byte): string
  {
    [SextetChar(b0 / 4), SextetChar((b0 % 4) * 16 + b1 / 16), SextetChar((b1 % 16) * 4 + b2 / 64), SextetChar(b2 % 64)]
  }

  /** Every three bytes become four characters; a final one or two bytes are
      padded with `==` or `=`. */
  function Encode(bs: seq<Byte>): (s: string)
    ensures |bs| == 0 ==> s == ""
    ensures 0 < |bs| <= 3 ==> |s| == 4
    ensures |bs| > 3 ==> |s| > 4
    decreases |bs|
  {
    if |bs| == 0 then ""
    else if |bs| == 1 then [SextetChar(bs[0] / 4), SextetChar((bs[0] % 4) * 16), '=', '=']
    else if |bs| == 2 then [SextetChar(bs[0] / 4), SextetChar((bs[0] % 4) * 16 + bs[1] / 16), SextetChar((bs[1] % 16) * 4), '=']
    else EncodeGroup(bs[0], bs[1], bs[2]) + Encode(bs[3..])
  }

  /** Four sextets back to up to three bytes. */
  function Bytes(x0: int, x1: int, x2: int, x3: int, count: nat): (bs: seq<Byte>)
    requires 0 <= x0 < 64 && 0 <= x1 < 64 && 0 <= x2 < 64 && 0 <= x3 < 64
    requires 1 <= count <= 3
    ensures |bs| == count
  {
    var b0 := x0 * 4 + x1 / 16;
    var b1 := (x1 % 16) * 16 + x2 / 4;
    var b2 := (x2 % 4) * 64 + x3;
    [b0, b1, b2][..count]
  }

  /** One group of four characters; padding is allowed only in the last group,
      and the bits the padding leaves unused must be zero. */
  function DecodeGroup(g: string, last: bool): (r: Option<seq<Byte>>)
    requires |g| == 4
    ensures r.Some? ==> 1 <= |r.value| <= 3
  {
    var count := if last && g[2] == '=' && g[3] == '=' then 1 else if last && g[3] == '=' then 2 else 3;
    var x0, x1 := SextetValue(g[0]), SextetValue(g[1]);
    var x2 := if count >= 2 then SextetValue(g[2]) else Some(0);
    var x3 := if count == 3 then SextetValue(g[3]) else Some(0);
    if x0.None? || x1.None? || x2.None? || x3.None? then None
    else if count == 1 && x1.value % 16 != 0 then None
    else if count == 2 && x2.value % 4 != 0 then None
    else Some(Bytes(x0.value, x1.value, x2.value, x3.value, count))
  }

  /** Decoding of padded text, group by group; `None` for text that is not
      the encoding of any byte sequence. */
  function Decode(s: string): (r: Option<seq<Byte>>)
    decreases |s|
  {
    if |s| == 0 then Some([])
    else if |s| < 4 then None
    else
      match DecodeGroup(s[..4], |s| == 4)
      case None => None
      case Some(group) =>
        match Decode(s[4..])
        case None => None
        case Some(rest) => Some(group + rest)
  }

  lemma GroupRoundTrip(b0: Byte, b1: Byte, b2: Byte, last: bool)
    ensures DecodeGroup(EncodeGroup(b0, b1, b2), last) == Some([b0, b1, b2])
  {
    var x0, x1, x2, x3 := b0 / 4, (b0 % 4) * 16 + b1 / 16, (b1 % 16) * 4 + b2 / 64, b2 % 64;
    SextetRoundTrip(x0);
    SextetRoundTrip(x1);
    SextetRoundTrip(x2);
    SextetRoundTrip(x3);
    assert x1 / 16 == b0 % 4 && x1 % 16 == b1 / 16;
    assert x2 / 4 == b1 % 16 && x2 % 4 == b2 / 64;
    assert Bytes(x0, x1, x2, x3, 3) == [b0, b1, b2];
  }

  /** A single final byte: two characters and `==`. */
  lemma RoundTripOne(b0: Byte)
    ensures DecodeGroup(Encode([b0]), true) == Some([b0])
  {
    var x0, x1 := b0 / 4, (b0 % 4) * 16;
    var g := Encode([b0]);
    assert g == [SextetChar(x0), SextetChar(x1), '=', '='];
    SextetRoundTrip(x0);
    SextetRoundTrip(x1);
    assert x1 / 16 == b0 % 4;
    assert x0 * 4 + x1 / 16 == b0;
    assert DecodeGroup(g, true) == Some(Bytes(x0, x1, 0, 0, 1));
    assert Bytes(x0, x1, 0, 0, 1) == [b0];
  }

  /** Two final bytes: three characters and `=`. */
  lemma RoundTripTwo(b0: Byte, b1: Byte)
    ensures DecodeGroup(Encode([b0, b1]), true) == Some([b0, b1])
  {
    var x1 := (b0 % 4) * 16 + b1 / 16;
    var x2 := (b1 % 16) * 4;
    var g := Encode([b0, b1]);
    assert g == [SextetChar(b0 / 4), SextetChar(x1), SextetChar(x2), '='];
    SextetRoundTrip(b0 / 4);
    SextetRoundTrip(x1);
    SextetRoundTrip(x2);
    assert x1 / 16 == b0 % 4 && x1 % 16 == b1 / 16;
    assert x2 / 4 == b1 % 16;
    assert Bytes(b0 / 4, x1, x2, 0, 2) == [b0, b1];
    assert DecodeGroup(g, true) == Some(Bytes(b0 / 4, x1, x2, 0, 2));
  }

  /** Decoding a group followed by more text decodes the group, then the rest. */
  lemma DecodeCons(g: string, rest: string, group: seq<Byte>, tail: seq<Byte>)
    requires |g| == 4
    requires DecodeGroup(g, |rest| == 0) == Some(group)
    requires Decode(rest) == Some(tail)
    ensures Decode(g + rest) == Some(group + tail)
  {
    var s := g + rest;
    assert s[..4] == g && s[4..] == rest;
  }

  /** Decoding undoes encoding, so the encoding is injective. */
  lemma {:induction false} RoundTrip(bs: seq<Byte>)
    ensures Decode(Encode(bs)) == Some(bs)
    decreases |bs|
  {
    if |bs| == 1 {
      RoundTripOne(bs[0]);
      assert [bs[0]] == bs;
      DecodeCons(Encode(bs), "", bs, []);
      assert Encode(bs) + "" == Encode(bs) && bs + [] == bs;
    } else if |bs| == 2 {
      RoundTripTwo(bs[0], bs[1]);
      assert [bs[0], bs[1]] == bs;
      DecodeCons(Encode(bs), "", bs, []);
      assert Encode(bs) + "" == Encode(bs) && bs + [] == bs;
    } else if |bs| >= 3 {
      var rest := Encode(bs[3..]);
      GroupRoundTrip(bs[0], bs[1], bs[2], |rest| == 0);
      RoundTrip(bs[3..]);
      DecodeCons(EncodeGroup(bs[0], bs[1], bs[2]), rest, [bs[0], bs[1], bs[2]], bs[3..]);
      assert [bs[0], bs[1], bs[2]] + bs[3..] == bs;
    }
  }

  lemma SextetCharOf(c: char)
    requires SextetValue(c).Some?
    ensures SextetChar(SextetValue(c).value) == c
  {
  }

  /** A group the decoder accepts is the encoding of the bytes it decodes to;
      a short group only ends the text. */
  lemma GroupCanonical(g: string, last: bool)
    requires |g| == 4 && DecodeGroup(g, last).Some?
    ensures Encode(DecodeGroup(g, last).value) == g
    ensures |DecodeGroup(g, last).value| < 3 ==> last
  {
    var bs := DecodeGroup(g, last).value;
    var x0, x1 := SextetValue(g[0]).value, SextetValue(g[1]).value;
    SextetCharOf(g[0]);
    SextetCharOf(g[1]);
    var b0 := x0 * 4 + x1 / 16;
    assert b0 / 4 == x0 && b0 % 4 == x1 / 16;
    if |bs| == 1 {
      assert g[2] == '=' && g[3] == '=' && x1 % 16 == 0;
      assert bs == [b0];
      assert (b0 % 4) * 16 == x1;
    } else if |bs| == 2 {
      var x2 := SextetValue(g[2]).value;
      SextetCharOf(g[2]);
      var b1 := (x1 % 16) * 16 + x2 / 4;
      assert g[3] == '=' && x2 % 4 == 0;
      assert bs == [b0, b1];
      assert b1 / 16 == x1 % 16 && b1 % 16 == x2 / 4;
      assert (b0 % 4) * 16 + b1 / 16 == x1;
      assert (b1 % 16) * 4 == x2;
    } else {
      var x2, x3 := SextetValue(g[2]).value, SextetValue(g[3]).value;
      SextetCharOf(g[2]);
      SextetCharOf(g[3]);
      var b1 := (x1 % 16) * 16 + x2 / 4;
      var b2 := (x2 % 4) * 64 + x3;
      assert bs == [b0, b1, b2];
      assert b1 / 16 == x1 % 16 && b1 % 16 == x2 / 4;
      assert b2 / 64 == x2 % 4 && b2 % 64 == x3;
      assert (b0 % 4) * 16 + b1 / 16 == x1;
      assert (b1 % 16) * 4 + b2 / 64 == x2;
      assert Encode(bs) == EncodeGroup(b0, b1, b2) + Encode([]);
    }
  }

  /** Text the decoder accepts is the encoding of what it decodes to. */
  lemma {:induction false} DecodeCanonical(s: string)
    requires Decode(s).Some?
    ensures Encode(Decode(s).value) == s
    decreases |s|
  {
    if |s| > 0 {
      var g, rest := s[..4], s[4..];
      var group := DecodeGroup(g, |s| == 4).value;
      GroupCanonical(g, |s| == 4);
      if |s| == 4 {
        assert rest == [] && Decode(s).value == group + [];
        assert g == s;
      } else {
        DecodeCanonical(rest);
        var tail := Decode(rest).value;
        assert Decode(s).value == group + tail;
        assert |group| == 3;
        assert Encode(group) == EncodeGroup(group[0], group[1], group[2]) + Encode([]);
        var bs := group + tail;
        assert bs[..3] == group && bs[3..] == tail;
        assert Encode(bs) == EncodeGroup(bs[0], bs[1], bs[2]) + Encode(tail);
        assert g + rest == s;
      }
    }
  }

  /** Decoding and encoding are inverse bijections: a text decodes to a byte
      sequence exactly when it is that sequence's encoding. */
  lemma DecodesExactlyEncodings(s: string, bs: seq<Byte>)
    ensures Decode(s) == Some(bs) <==> s == Encode(bs)
  {
    RoundTrip(bs);
    if Decode(s) == Some(bs) {
      DecodeCanonical(s);
    }
  }
}

=== FILE: datatype_converter.dfy ===
/** `DatatypeConverter.parseBase64Binary`, the lenient decoder `createKey`
    applies to the configured secret. It walks the text once: a character
    outside the base64 alphabet and `=` is skipped, every fourth kept
    character completes a group that yields one to three bytes, and an
    incomplete final group is dropped. So texts that differ only in skipped
    characters give the same key bytes. */
module DatatypeConverter {
  import opened Wrappers
  import opened Utf8
  import Base64

  /** The table value of `=`. */
  const PADDING: int := 127

  /** The decoder's table entry for a character: its six-bit value, `PADDING`
      for `=`, and -1 for a character the decoder skips. */
  function DecodeMap(c: char): (v: int)
    ensures v == -1 || v == PADDING || 0 <= v < 64
    ensures 0 <= v < 64 <==> Base64.SextetValue(c).Some?
    ensures Base64.SextetValue(c).Some? ==> v == Base64.SextetValue(c).value
  {
    if c == '=' then PADDING
    else match Base64.SextetValue(c)
      case Some(x) => x
      case None => -1
  }

  /** A value a group can hold: a sextet or padding. */
  predicate IsEntry(v: int) {
    v == PADDING || 0 <= v < 64
  }

  predicate AllEntries(q: seq<int>) {
    forall i :: 0 <= i < |q| ==> IsEntry(q[i])
  }

  /** Java's `|` on non-negative `int`s, bit by bit. */
  function Or(a: nat, b: nat): nat
    decreases a + b
  {
    if a == 0 then b
    else if b == 0 then a
    else 2 * Or(a / 2, b / 2) + (if a % 2 == 1 || b % 2 == 1 then 1 else 0)
  }

  function Pow2(k: nat): (p: nat)
    ensures p >= 1
  {
    if k == 0 then 1 else 2 * Pow2(k - 1)
  }

  /** When the low `k` bits of `a` are clear and `b` fits in them, `a | b` is `a + b`. */
  lemma {:induction false} OrDisjoint(m: nat, b: nat, k: nat)
    requires b < Pow2(k)
    ensures Or(m * Pow2(k), b) == m * Pow2(k) + b
    decreases k
  {
    var a := m * Pow2(k);
    if k == 0 {
      assert b == 0;
    } else if a == 0 || b == 0 {
    } else {
      assert a == 2 * (m * Pow2(k - 1));
      assert a / 2 == m * Pow2(k - 1) && a % 2 == 0;
      OrDisjoint(m, b / 2, k - 1);
    }
  }

  /** The bytes one complete group yields, each the low eight bits of
      `(q0 << 2) | (q1 >> 4)`, `(q1 << 4) | (q2 >> 2)` and `(q2 << 6) | q3`;
      the second is written only when `q2` is not padding, the third only when
      `q3` is not. */
  function GroupBytes(q0: int, q1: int, q2: int, q3: int): (bs: seq<Byte>)
    requires IsEntry(q0) && IsEntry(q1) && IsEntry(q2) && IsEntry(q3)
    ensures |bs| == 1 + (if q2 != PADDING then 1 else 0) + (if q3 != PADDING then 1 else 0)
  {
    var b0 := Or(q0 * 4, q1 / 16) % 256;
    var b1 := Or(q1 * 16, q2 / 4) % 256;
    var b2 := Or(q2 * 64, q3) % 256;
    [b0] + (if q2 != PADDING then [b1] else []) + (if q3 != PADDING then [b2] else [])
  }

  /** The decoding loop: `quad` holds the entries kept since the last complete
      group, `out` the bytes written so far. */
  function DecodeFrom(text: string, quad: seq<int>, out: seq<Byte>): (bs: seq<Byte>)
    requires |quad| < 4 && AllEntries(quad)
    ensures |out| <= |bs|
    decreases |text|
  {
    if |text| == 0 then out
    else
      var v := DecodeMap(text[0]);
      var quad' := if v != -1 then quad + [v] else quad;
      if |quad'| == 4 then DecodeFrom(text[1..], [], out + GroupBytes(quad'[0], quad'[1], quad'[2], quad'[3]))
      else DecodeFrom(text[1..], quad', out)
  }

  /** `parseBase64Binary(text)`. */
  function ParseBase64Binary(text: string): (bs: seq<Byte>)
  {
    DecodeFrom(text, [], [])
  }

  // ---------------------------------------------------------------------
  // Properties

  /** A skipped character anywhere in the text changes nothing. */
  lemma {:induction false} SkipAnywhere(a: string, c: char, b: string, quad: seq<int>, out: seq<Byte>)
    requires DecodeMap(c) == -1
    requires |quad| < 4 && AllEntries(quad)
    ensures DecodeFrom(a + [c] + b, quad, out) == DecodeFrom(a + b, quad, out)
    decreases |a|
  {
    if |a| == 0 {
      assert a + [c] + b == [c] + b && ([c] + b)[1..] == b && a + b == b;
    } else {
      assert (a + [c] + b)[0] == a[0] && (a + [c] + b)[1..] == a[1..] + [c] + b;
      assert (a + b)[0] == a[0] && (a + b)[1..] == a[1..] + b;
      var v := DecodeMap(a[0]);
      var quad' := if v != -1 then quad + [v] else quad;
      if |quad'| == 4 {
        SkipAnywhere(a[1..], c, b, [], out + GroupBytes(quad'[0], quad'[1], quad'[2], quad'[3]));
      } else {
        SkipAnywhere(a[1..], c, b, quad', out);
      }
    }
  }

  /** Secrets that differ by one skipped character, such as a space or a line
      break, decode to the same key bytes. */
  lemma SkippedCharacterIgnored(a: string, c: char, b: string)
    requires DecodeMap(c) == -1
    ensures ParseBase64Binary(a + [c] + b) == ParseBase64Binary(a + b)
  {
    SkipAnywhere(a, c, b, [], []);
  }

  /** Four kept characters at the start of the text are one group. */
  lemma GroupStep(g: string, rest: string, out: seq<Byte>)
    requires |g| == 4 && forall i :: 0 <= i < 4 ==> DecodeMap(g[i]) != -1
    ensures DecodeFrom(g + rest, [], out)
         == DecodeFrom(rest, [], out + GroupBytes(DecodeMap(g[0]), DecodeMap(g[1]), DecodeMap(g[2]), DecodeMap(g[3])))
  {
    var s := g + rest;
    var q0, q1, q2, q3 := DecodeMap(g[0]), DecodeMap(g[1]), DecodeMap(g[2]), DecodeMap(g[3]);
    assert s[0] == g[0] && s[1..][0] == g[1] && s[1..][1..][0] == g[2] && s[1..][1..][1..][0] == g[3];
    assert s[1..][1..][1..][1..] == rest;
    assert [] + [q0] == [q0] && [q0] + [q1] == [q0, q1];
    assert [q0, q1] + [q2] == [q0, q1, q2] && [q0, q1, q2] + [q3] == [q0, q1, q2, q3];
    calc {
      DecodeFrom(s, [], out);
      DecodeFrom(s[1..], [q0], out);
      DecodeFrom(s[1..][1..], [q0, q1], out);
      DecodeFrom(s[1..][1..][1..], [q0, q1, q2], out);
      DecodeFrom(rest, [], out + GroupBytes(q0, q1, q2, q3));
    }
  }

  lemma FirstByte(x0: int, x1: int)
    requires 0 <= x0 < 64 && 0 <= x1 < 64
    ensures Or(x0 * 4, x1 / 16) % 256 == x0 * 4 + x1 / 16
  {
    assert Pow2(2) == 4;
    OrDisjoint(x0, x1 / 16, 2);
  }

  lemma SecondByte(x1: int, x2: int)
    requires 0 <= x1 < 64 && 0 <= x2 < 64
    ensures Or(x1 * 16, x2 / 4) % 256 == (x1 % 16) * 16 + x2 / 4
  {
    assert Pow2(4) == 16;
    OrDisjoint(x1, x2 / 4, 4);
    assert x1 * 16 + x2 / 4 == (x1 / 16) * 256 + ((x1 % 16) * 16 + x2 / 4);
  }

  lemma ThirdByte(x2: int, x3: int)
    requires 0 <= x2 < 64 && 0 <= x3 < 64
    ensures Or(x2 * 64, x3) % 256 == (x2 % 4) * 64 + x3
  {
    assert Pow2(6) == 64;
    OrDisjoint(x2, x3, 6);
    assert x2 * 64 + x3 == (x2 / 4) * 256 + ((x2 % 4) * 64 + x3);
  }

  /** Without padding in the middle, a group yields what the strict decoder's
      arithmetic gives. */
  lemma GroupBytesAgree(x0: int, x1: int, x2: int, x3: int)
    requires 0 <= x0 < 64 && 0 <= x1 < 64 && 0 <= x2 < 64 && 0 <= x3 < 64
    ensures GroupBytes(x0, x1, x2, x3) == Base64.Bytes(x0, x1, x2, x3, 3)
    ensures GroupBytes(x0, x1, x2, PADDING) == Base64.Bytes(x0, x1, x2, 0, 2)
    ensures GroupBytes(x0, x1, PADDING, PADDING) == Base64.Bytes(x0, x1, 0, 0, 1)
  {
    FirstByte(x0, x1);
    SecondByte(x1, x2);
    ThirdByte(x2, x3);
  }

  /** On one group the strict decoder accepts, the lenient one yields the same bytes. */
  lemma GroupAgrees(g: string, last: bool)
    requires |g| == 4 && Base64.DecodeGroup(g, last).Some?
    ensures forall i :: 0 <= i < 4 ==> DecodeMap(g[i]) != -1
    ensures GroupBytes(DecodeMap(g[0]), DecodeMap(g[1]), DecodeMap(g[2]), DecodeMap(g[3]))
         == Base64.DecodeGroup(g, last).value
  {
    var x0, x1 := Base64.SextetValue(g[0]).value, Base64.SextetValue(g[1]).value;
    if last && g[2] == '=' && g[3] == '=' {
      GroupBytesAgree(x0, x1, 0, 0);
    } else if last && g[3] == '=' {
      GroupBytesAgree(x0, x1, Base64.SextetValue(g[2]).value, 0);
    } else {
      GroupBytesAgree(x0, x1, Base64.SextetValue(g[2]).value, Base64.SextetValue(g[3]).value);
    }
  }

  /** On text the strict decoder accepts, the lenient decoder agrees with it. */
  lemma {:induction false} StrictTextAgreesFrom(s: string, out: seq<Byte>)
    requires Base64.Decode(s).Some?
    ensures DecodeFrom(s, [], out) == out + Base64.Decode(s).value
    decreases |s|
  {
    if |s| == 0 {
      assert out + [] == out;
    } else {
      var g, rest := s[..4], s[4..];
      assert s == g + rest;
      var group := Base64.DecodeGroup(g, |s| == 4).value;
      GroupAgrees(g, |s| == 4);
      GroupStep(g, rest, out);
      StrictTextAgreesFrom(rest, out + group);
      assert out + group + Base64.Decode(rest).value == out + (group + Base64.Decode(rest).value);
    }
  }

  /** A secret written as padded base64 decodes to exactly the bytes it encodes. */
  lemma EncodedSecretDecodes(bs: seq<Byte>)
    ensures ParseBase64Binary(Base64.Encode(bs)) == bs
  {
    Base64.RoundTrip(bs);
    StrictTextAgreesFrom(Base64.Encode(bs), []);
    assert [] + bs == bs;
  }

  /** The secret "c2VjcmV0" is the six bytes of the text "secret". */
  lemma SecretExample()
    ensures ParseBase64Binary("c2VjcmV0") == [115, 101, 99, 114, 101, 116]
  {
    var bs: seq<Byte> := [115, 101, 99, 114, 101, 116];
    assert bs[3..] == [114, 101, 116] && bs[3..][3..] == [];
    assert Base64.Encode(bs[3..]) == Base64.EncodeGroup(114, 101, 116) + Base64.Encode([]);
    assert Base64.Encode(bs) == Base64.EncodeGroup(115, 101, 99) + Base64.Encode(bs[3..]);
    assert Base64.SextetChar(28) == 'c' && Base64.SextetChar(54) == '2';
    assert Base64.SextetChar(21) == 'V' && Base64.SextetChar(35) == 'j';
    assert Base64.SextetChar(38) == 'm' && Base64.SextetChar(52) == '0';
    assert Base64.EncodeGroup(115, 101, 99) == "c2Vj";
    assert Base64.EncodeGroup(114, 101, 116) == "cmV0";
    assert Base64.Encode(bs) == "c2VjcmV0";
    EncodedSecretDecodes(bs);
  }
}

=== FILE: domain.dfy ===
/** The persisted entities the core reads and writes, and the error codes it
    throws with. Repositories are modelled as maps elsewhere; the entities
    themselves are plain values. */
module Domain {
  import opened Wrappers
  import Jwt

  datatype SocialType = Kakao | Naver

  /** `FlagYn`: whether an Account has completed member registration. */
  datatype FlagYn = YES | NO

  /** `ErrorCode` values raised by the modelled code. */
  datatype ErrorCode =
    | TOKEN_EXPIRED_ERROR
    | UNSUPPORTED_TOKEN_ERROR
    | JWT_ERROR
    | NOT_FOUND_MEMBER
    | ALREADY_MEMBER_ZZIM_STORE

  /** An Account built by `Account.builder()` and not saved yet: no id, no
      membership flag, no refresh token. */
  datatype AccountDraft = AccountDraft(socialId: string, socialType: SocialType, email: string, profileImageUrl: string)

  /** A saved Account, identified by `accountId` and unique per (socialId,
      socialType). Its `memberYn` column is nullable, so it is held as an `Option`. */
  datatype Account = Account(
    accountId: int,
    socialId: string,
    socialType: SocialType,
    email: string,
    profileImageUrl: string,
    memberYn: Option<FlagYn>,
    refreshToken: Option<Jwt.Token>)
  {
    /** `login(refreshToken)` / `setLoginStatus(refreshToken)`: records the
        refresh token the account logged in with; nothing else changes. */
    function Login(token: Jwt.Token): (a: Account)
      ensures a.refreshToken == Some(token)
      ensures a.(refreshToken := refreshToken) == this
    {
      this.(refreshToken := Some(token))
    }
  }

  /** A registered member, linked one-to-one with an Account. */
  datatype Member = Member(memberId: int, accountId: int)
}

=== FILE: java_long.dfy ===
/** Java `long` arithmetic and the decimal conversions `Long.toString` and
    `Long.valueOf`, over Dafny's unbounded integers. */
module JavaLong {
  import opened Wrappers

  const TWO_64: int := 0x1_0000_0000_0000_0000
  const MIN: int := -0x8000_0000_0000_0000
  const MAX: int := 0x7FFF_FFFF_FFFF_FFFF

  predicate IsLong(x: int) {
    MIN <= x <= MAX
  }

  /** Two's-complement wrap-around of a mathematical result into 64 bits. */
  function Wrap(x: int): (r: int)
    ensures IsLong(r)
    ensures (r - x) % TWO_64 == 0
    ensures IsLong(x) ==> r == x
  {
    (x - MIN) % TWO_64 + MIN
  }

  /** `a * b` on two `long`s. */
  function Mul(a: int, b: int): (r: int)
    ensures IsLong(r)
    ensures (r - a * b) % TWO_64 == 0
    ensures IsLong(a * b) ==> r == a * b
  {
    Wrap(a * b)
  }

  /** `a + b` on two `long`s. */
  function Add(a: int, b: int): (r: int)
    ensures IsLong(r)
    ensures (r - (a + b)) % TWO_64 == 0
    ensures IsLong(a + b) ==> r == a + b
  {
    Wrap(a + b)
  }

  /** `ms / 1000` on a `long`: Java's division truncates toward zero. */
  function MillisToSeconds(ms: int): (q: int)
    ensures ms >= 0 ==> 0 <= q * 1000 <= ms < q * 1000 + 1000
    ensures ms < 0 ==> q * 1000 - 1000 < ms <= q * 1000 <= 0
  {
    if ms >= 0 then ms / 1000 else -((-ms) / 1000)
  }

  // ---------------------------------------------------------------------
  // Decimal text

  predicate IsDigit(c: char) {
    '0' <= c <= '9'
  }

  function DigitChar(d: nat): (c: char)
    requires d < 10
    ensures IsDigit(c)
  {
    (('0' as int) + d) as char
  }

  function DigitValue(c: char): (d: nat)
    requires IsDigit(c)
    ensures d < 10
    ensures DigitChar(d) == c
  {
    (c as int) - ('0' as int)
  }

  /** The shortest decimal numeral of `n`, most significant digit first. */
  function NatToDigits(n: nat): (s: string)
    decreases n
  {
    if n < 10 then [DigitChar(n)] else NatToDigits(n / 10) + [DigitChar(n % 10)]
  }

  /** The value of a non-empty run of ASCII digits. */
  function DigitsValue(s: string): (v: nat)
    requires |s| > 0
    requires forall i :: 0 <= i < |s| ==> IsDigit(s[i])
  {
    if |s| == 1 then DigitValue(s[0])
    else DigitsValue(s[..|s| - 1]) * 10 + DigitValue(s[|s| - 1])
  }

  /** `Long.toString(n)`: an optional minus sign followed by the digits of |n|. */
  function ToDecimal(n: int): (s: string)
  {
    if n < 0 then "-" + NatToDigits(-n) else NatToDigits(n)
  }

  /** The reasons `Long.valueOf` throws `NumberFormatException`. */
  datatype NumberFormatError = NullString | EmptyString | LoneSign | NonDigit | OutOfRange

  /** `Long.valueOf(s)` for a possibly null string: an optional leading `+` or
      `-`, then at least one digit, the value within the `long` range. */
  function ValueOf(s: Option<string>): (r: Result<int, NumberFormatError>)
    ensures r.Ok? ==> IsLong(r.value)
  {
    match s
    case None => Err(NullString)
    case Some(t) =>
      if |t| == 0 then Err(EmptyString)
      else if t[0] == '-' || t[0] == '+' then
        if |t| == 1 then Err(LoneSign)
        else SignedValue(t[0] == '-', t[1..])
      else SignedValue(false, t)
  }

  function SignedValue(negative: bool, digits: string): (r: Result<int, NumberFormatError>)
    requires |digits| > 0
    ensures r.Ok? ==> IsLong(r.value)
  {
    if exists i :: 0 <= i < |digits| && !IsDigit(digits[i]) then Err(NonDigit)
    else
      var d: int := DigitsValue(digits);
      var v := if negative then -d else d;
      if IsLong(v) then Ok(v) else Err(OutOfRange)
  }

  // ---------------------------------------------------------------------
  // Properties

  lemma {:induction false} NatToDigitsShape(n: nat)
    ensures |NatToDigits(n)| > 0
    ensures forall i :: 0 <= i < |NatToDigits(n)| ==> IsDigit(NatToDigits(n)[i])
    decreases n
  {
    if n >= 10 {
      NatToDigitsShape(n / 10);
    }
  }

  /** Reading back the digits `NatToDigits` writes gives the number. */
  lemma {:induction false} DigitsRoundTrip(n: nat)
    ensures |NatToDigits(n)| > 0
    ensures forall i :: 0 <= i < |NatToDigits(n)| ==> IsDigit(NatToDigits(n)[i])
    ensures DigitsValue(NatToDigits(n)) == n
    decreases n
  {
    NatToDigitsShape(n);
    if n >= 10 {
      DigitsRoundTrip(n / 10);
      var s := NatToDigits(n);
      assert s[..|s| - 1] == NatToDigits(n / 10);
    }
  }

  /** `Long.valueOf(Long.toString(n)) == n` for every `long` n. */
  lemma DecimalRoundTrip(n: int)
    requires IsLong(n)
    ensures ValueOf(Some(ToDecimal(n))) == Ok(n)
  {
    var m: nat := if n < 0 then -n else n;
    DigitsRoundTrip(m);
    var s := ToDecimal(n);
    if n < 0 {
      assert s[1..] == NatToDigits(m);
    } else {
      assert s == NatToDigits(m);
      assert IsDigit(s[0]);
    }
  }

  /** Distinct numbers have distinct decimal forms. */
  lemma ToDecimalInjective(a: int, b: int)
    requires IsLong(a) && IsLong(b)
    ensures ToDecimal(a) == ToDecimal(b) <==> a == b
  {
    DecimalRoundTrip(a);
    DecimalRoundTrip(b);
  }

  /** A decimal numeral always has at least one character. */
  lemma ToDecimalNonEmpty(n: int)
    ensures ToDecimal(n) != ""
  {
    NatToDigitsShape(if n < 0 then -n else n);
  }
}

=== FILE: json.dfy ===
/** The value tree Jackson hands the provider strategies: a response body
    deserialised into `Map<String, Object>`, with nested maps, lists, strings,
    integral numbers, booleans and `null`. An object is a `LinkedHashMap`, so its
    keys are distinct and keep their order; `Lookup` takes the first field with
    the key, which for such a map is the only one. */
module Json {
  import opened Wrappers
  import JavaLong

  datatype Json =
    | JNull
    | JBool(b: bool)
    | JNum(n: int)
    | JStr(s: string)
    | JArr(items: seq<Json>)
    | JObj(fields: seq<Field>)

  datatype Field = Field(key: string, value: Json)

  type Object = seq<Field>

  /** `map.get(key)`: the value stored under `key`, or `null` when absent. */
  function Lookup(obj: Object, key: string): (v: Json)
    ensures v != JNull ==> exists i :: 0 <= i < |obj| && obj[i].key == key && obj[i].value == v
    ensures (forall i :: 0 <= i < |obj| ==> obj[i].key != key) ==> v == JNull
  {
    if |obj| == 0 then JNull
    else if obj[0].key == key then obj[0].value
    else Lookup(obj[1..], key)
  }

  /** `String.valueOf(v)`: Java's `toString` of each value kind, `"null"` for null,
      `[a, b]` for a list and `{k=v, k2=v2}` for a map. */
  function Render(j: Json): (s: string)
    decreases j, 1
  {
    match j
    case JNull => "null"
    case JBool(b) => if b then "true" else "false"
    case JNum(n) => JavaLong.ToDecimal(n)
    case JStr(s) => s
    case JArr(items) => "[" + RenderItems(items) + "]"
    case JObj(fields) => "{" + RenderFields(fields) + "}"
  }

  function RenderItems(items: seq<Json>): string
    decreases items, 0
  {
    if |items| == 0 then ""
    else if |items| == 1 then Render(items[0])
    else Render(items[0]) + ", " + RenderItems(items[1..])
  }

  function RenderFields(fields: seq<Field>): string
    decreases fields, 0
  {
    if |fields| == 0 then ""
    else
      var head := fields[0].key + "=" + Render(fields[0].value);
      if |fields| == 1 then head else head + ", " + RenderFields(fields[1..])
  }

  /** `v.toString()`: throws `NullPointerException` (here `None`) on null. */
  function ToStr(v: Json): (r: Option<string>)
    ensures r.None? <==> v == JNull
    ensures v.JStr? ==> r == Some(v.s)
    ensures v.JNum? ==> r == Some(JavaLong.ToDecimal(v.n))
  {
    if v == JNull then None else Some(Render(v))
  }

  /** The cast `(Map<String, Object>) v`: `null` passes through as a null map,
      a map passes, anything else throws `ClassCastException` (here `Err`). */
  function AsObject(v: Json): (r: Result<Option<Object>, ()>)
    ensures r == Ok(None) <==> v == JNull
    ensures (r.Ok? && r.value.Some?) <==> v.JObj?
    ensures r.Ok? && r.value.Some? ==> r.value.value == v.fields
  {
    match v
    case JNull => Ok(None)
    case JObj(fields) => Ok(Some(fields))
    case _ => Err(())
  }

  /** An object in which `key` is absent from the first `i` fields. */
  lemma {:induction false} LookupFirst(obj: Object, key: string, i: nat)
    requires i < |obj| && obj[i].key == key
    requires forall j :: 0 <= j < i ==> obj[j].key != key
    ensures Lookup(obj, key) == obj[i].value
    decreases i
  {
    if i > 0 {
      LookupFirst(obj[1..], key, i - 1);
    }
  }
}

=== FILE: jwt.dfy ===
/** The signed-token library the provider relies on, reduced to what the
    provider can observe. Signing is an injective encoding: a compact token is
    represented by the header, payload and key it was built from, so decoding
    recovers exactly what was encoded. The HMAC itself is not modelled: a
    signature is taken to be computed with the algorithm its header names, and
    it verifies exactly when that algorithm is an HMAC one and the verifying key
    is the signing key. */
module Jwt {
  import opened Wrappers
  import opened Json
  import JavaLong
  import Utf8

  /** An HMAC key: the bytes `SecretKeySpec` wraps. Two keys are the same key
      exactly when their bytes are equal. */
  datatype SecretKey = SecretKey(material: seq<Utf8.Byte>)

  datatype Header = Header(typ: string, alg: string)

  /** Custom claims plus the registered `exp` claim, which the library writes
      in whole seconds. */
  datatype Payload = Payload(claims: Object, exp: Option<int>)

  /** A token string as a client presents it. */
  datatype Token =
    | Signed(header: Header, payload: Payload, key: SecretKey)
    | Unsigned(header: Header, payload: Payload)
    | Unparseable(text: string)

  /** The exceptions `parseClaimsJws` throws. `EmptyArgument` is an
      `IllegalArgumentException`; the others are `JwtException`s:
      `MalformedJwtException`, `SignatureException` (a signature that does not
      verify, or an `alg` naming no known algorithm), `ExpiredJwtException` and
      `UnsupportedJwtException`. */
  datatype JwtFailure = EmptyArgument | Malformed | BadSignature | Expired | Unsupported

  /** `io.jsonwebtoken.SignatureAlgorithm`, in declaration order. */
  datatype SignatureAlgorithm =
    | NONE | HS256 | HS384 | HS512 | RS256 | RS384 | RS512
    | ES256 | ES384 | ES512 | PS256 | PS384 | PS512
  {
    /** The algorithm's `alg` header value. */
    function Value(): (v: string)
      ensures |v| == 4 <==> this == NONE
    {
      match this
      case NONE => "none"
      case HS256 => "HS256" case HS384 => "HS384" case HS512 => "HS512"
      case RS256 => "RS256" case RS384 => "RS384" case RS512 => "RS512"
      case ES256 => "ES256" case ES384 => "ES384" case ES512 => "ES512"
      case PS256 => "PS256" case PS384 => "PS384" case PS512 => "PS512"
    }

    /** The HMAC family, the only one a `SecretKeySpec` can verify. */
    predicate IsHmac() {
      this == HS256 || this == HS384 || this == HS512
    }
  }

  /** `SignatureAlgorithm.values()`. */
  const ALGORITHMS: seq<SignatureAlgorithm> :=
    [NONE, HS256, HS384, HS512, RS256, RS384, RS512, ES256, ES384, ES512, PS256, PS384, PS512]

  lemma AlgorithmsListed(a: SignatureAlgorithm)
    ensures a in ALGORITHMS
  {
  }

  /** The case folding `String.equalsIgnoreCase` applies, on the characters
      that can fold onto an ASCII letter: the ASCII lower-case letters, dotless
      i and dotted capital I, long s, and the Kelvin sign. */
  function UpperCase(c: char): (u: char)
    ensures 'a' <= c <= 'z' ==> u as int == c as int - 32
    ensures !('a' <= c <= 'z') && c < '\U{80}' ==> u == c
  {
    if 'a' <= c <= 'z' then ((c as int) - 32) as char
    else if c == '\U{130}' || c == '\U{131}' then 'I'
    else if c == '\U{17F}' then 'S'
    else if c == '\U{212A}' then 'K'
    else c
  }

  /** `name.equalsIgnoreCase(s)`. */
  predicate EqualsIgnoreCase(name: string, s: string) {
    |name| == |s| && forall i :: 0 <= i < |s| ==> UpperCase(name[i]) == UpperCase(s[i])
  }

  /** No text equals two algorithm values ignoring case, so `forName` has at
      most one answer. */
  lemma NamesDistinct(a: SignatureAlgorithm, b: SignatureAlgorithm, s: string)
    requires EqualsIgnoreCase(a.Value(), s) && EqualsIgnoreCase(b.Value(), s)
    ensures a == b
  {
    var x, y := a.Value(), b.Value();
    if |x| == 5 {
      assert UpperCase(x[0]) == UpperCase(s[0]) == UpperCase(y[0]);
      assert UpperCase(x[2]) == UpperCase(s[2]) == UpperCase(y[2]);
      assert x[0] == y[0] && x[2] == y[2];
    }
  }

  /** The first of `algs` whose value equals `alg` ignoring case. */
  function FirstNamed(algs: seq<SignatureAlgorithm>, alg: string): (r: Option<SignatureAlgorithm>)
    ensures r.Some? ==> r.value in algs && EqualsIgnoreCase(r.value.Value(), alg)
    ensures r.None? ==> forall a :: a in algs ==> !EqualsIgnoreCase(a.Value(), alg)
  {
    if |algs| == 0 then None
    else if EqualsIgnoreCase(algs[0].Value(), alg) then Some(algs[0])
    else FirstNamed(algs[1..], alg)
  }

  /** `SignatureAlgorithm.forName`: the algorithm whose value equals the text
      ignoring case; `None` where Java throws `SignatureException`. */
  function ForName(alg: string): (r: Option<SignatureAlgorithm>)
    ensures r.Some? ==> EqualsIgnoreCase(r.value.Value(), alg)
    ensures r.None? <==> forall a: SignatureAlgorithm :: !EqualsIgnoreCase(a.Value(), alg)
  {
    var r := FirstNamed(ALGORITHMS, alg);
    assert r.None? ==> forall a: SignatureAlgorithm :: !EqualsIgnoreCase(a.Value(), alg) by {
      forall a: SignatureAlgorithm ensures r.None? ==> !EqualsIgnoreCase(a.Value(), alg) {
        AlgorithmsListed(a);
      }
    }
    r
  }

  /** How the parser classifies a signed token by its `alg` header: absent,
      blank or `none` is malformed, an unknown name fails `forName`, and an
      RSA, EC or PSS algorithm cannot be verified with an HMAC key. */
  datatype HeaderCheck = NoAlgorithm | UnknownAlgorithm | Asymmetric | Hmac

  function CheckHeader(h: Header): (c: HeaderCheck)
    ensures c == NoAlgorithm <==> !HasText(h.alg) || EqualsIgnoreCase(NONE.Value(), h.alg)
    ensures c == UnknownAlgorithm <==> HasText(h.alg) && forall a: SignatureAlgorithm :: !EqualsIgnoreCase(a.Value(), h.alg)
    ensures c == Hmac <==> HasText(h.alg) && exists a: SignatureAlgorithm :: a.IsHmac() && EqualsIgnoreCase(a.Value(), h.alg)
    ensures c == Asymmetric <==>
      HasText(h.alg) && exists a: SignatureAlgorithm :: a != NONE && !a.IsHmac() && EqualsIgnoreCase(a.Value(), h.alg)
  {
    forall a: SignatureAlgorithm | EqualsIgnoreCase(a.Value(), h.alg) && ForName(h.alg).Some?
      ensures a == ForName(h.alg).value
    {
      NamesDistinct(a, ForName(h.alg).value, h.alg);
    }
    if !HasText(h.alg) then NoAlgorithm
    else
      match ForName(h.alg)
      case None => UnknownAlgorithm
      case Some(a) =>
        if a == NONE then NoAlgorithm
        else if a.IsHmac() then Hmac
        else Asymmetric
  }

  /** `Character.isWhitespace` on the ASCII range. */
  predicate IsWhitespace(c: char) {
    c == ' ' || '\t' <= c <= '\r' || '\U{1C}' <= c <= '\U{1F}'
  }

  predicate HasText(s: string) {
    exists i :: 0 <= i < |s| && !IsWhitespace(s[i])
  }

  /** The payload has an `exp` and the clock (milliseconds) is past it, with no
      allowed clock skew. */
  predicate IsExpired(pl: Payload, nowMillis: int) {
    pl.exp.Some? && nowMillis > JavaLong.Mul(pl.exp.value, 1000)
  }

  /** `parseClaimsJws` with a parser built on `key`: blank input is rejected,
      unparseable text is malformed; a signed token's `alg` header is checked,
      then its signature, then its expiry; an unsigned token that has not
      expired is unsupported. */
  function ParseClaimsJws(key: SecretKey, nowMillis: int, t: Token): (r: Result<Payload, JwtFailure>)
    ensures r.Ok? <==> t.Signed? && CheckHeader(t.header) == Hmac && t.key == key && !IsExpired(t.payload, nowMillis)
    ensures r.Ok? ==> r.value == t.payload
    ensures r == Err(Expired) <==>
      (t.Unsigned? || (t.Signed? && CheckHeader(t.header) == Hmac && t.key == key)) && IsExpired(t.payload, nowMillis)
    ensures r == Err(BadSignature) <==>
      t.Signed? && (CheckHeader(t.header) == UnknownAlgorithm || (CheckHeader(t.header) == Hmac && t.key != key))
    ensures r == Err(EmptyArgument) <==> t.Unparseable? && !HasText(t.text)
    ensures r == Err(Malformed) <==>
      (t.Unparseable? && HasText(t.text)) || (t.Signed? && CheckHeader(t.header) == NoAlgorithm)
    ensures r == Err(Unsupported) <==>
      (t.Unsigned? && !IsExpired(t.payload, nowMillis)) || (t.Signed? && CheckHeader(t.header) == Asymmetric)
  {
    match t
    case Unparseable(text) => if HasText(text) then Err(Malformed) else Err(EmptyArgument)
    case Signed(header, payload, k) =>
      (match CheckHeader(header)
       case NoAlgorithm => Err(Malformed)
       case UnknownAlgorithm => Err(BadSignature)
       case Asymmetric => Err(Unsupported)
       case Hmac =>
         if k != key then Err(BadSignature)
         else if IsExpired(payload, nowMillis) then Err(Expired)
         else Ok(payload))
    case Unsigned(_, payload) =>
      if IsExpired(payload, nowMillis) then Err(Expired) else Err(Unsupported)
  }
}

=== FILE: jwt_token_provider.dfy ===
/** `JwtTokenProvider`: issues access and refresh tokens carrying the member and
    account ids, classifies validation failures into error codes, and maps a
    token to an authentication whose principal is the member id and whose
    credential is the account id. The clock is a parameter (milliseconds since
    the epoch) and the ambient security context is an explicit value. */
module JwtTokenProvider {
  import opened Wrappers
  import opened Json
  import opened Jwt
  import opened Domain
  import JavaLong
  import DatatypeConverter

  const TOKEN_PREFIX: string := "Bearer "
  const ACCESS_TOKEN: string := "access_token"
  const REFRESH_TOKEN: string := "refresh_token"

  /** The header every issued token carries. */
  const JWT_HEADER: Header := Header("JWT", "HS256")

  /** The parser accepts the issued header's algorithm as HMAC. */
  lemma IssuedHeaderIsHmac()
    ensures CheckHeader(JWT_HEADER) == Hmac
  {
    assert !IsWhitespace(JWT_HEADER.alg[0]);
    assert HS256.Value() == JWT_HEADER.alg;
  }

  /** A constructed provider: the signing key and both validity windows in milliseconds. */
  datatype Provider = Provider(key: SecretKey, accessValidityMillis: int, refreshValidityMillis: int)

  /** `createKey`: the HMAC key over the bytes the configured secret decodes to. */
  function CreateKey(secretBaseKey: string): (k: SecretKey)
  {
    SecretKey(DatatypeConverter.ParseBase64Binary(secretBaseKey))
  }

  /** The constructor. The configured validities are multiplied by 60000 in
      `long` arithmetic, so the configured unit is effectively minutes. */
  function NewProvider(secretBaseKey: string, accessValiditySec: int, refreshValiditySec: int): (p: Provider)
    requires JavaLong.IsLong(accessValiditySec) && JavaLong.IsLong(refreshValiditySec)
    ensures p.key.material == DatatypeConverter.ParseBase64Binary(secretBaseKey)
    ensures JavaLong.IsLong(accessValiditySec * 60000) ==> p.accessValidityMillis == accessValiditySec * 60 * 1000
    ensures JavaLong.IsLong(refreshValiditySec * 60000) ==> p.refreshValidityMillis == refreshValiditySec * 60 * 1000
    ensures JavaLong.IsLong(p.accessValidityMillis) && JavaLong.IsLong(p.refreshValidityMillis)
    ensures (p.accessValidityMillis - accessValiditySec * 60 * 1000) % JavaLong.TWO_64 == 0
    ensures (p.refreshValidityMillis - refreshValiditySec * 60 * 1000) % JavaLong.TWO_64 == 0
  {
    Provider(CreateKey(secretBaseKey), JavaLong.Mul(accessValiditySec, 60000), JavaLong.Mul(refreshValiditySec, 60000))
  }

  /** The validity window `createToken` picks for a token type. */
  function ValidityFor(p: Provider, tokenType: string): (ms: int)
  {
    if tokenType == ACCESS_TOKEN then p.accessValidityMillis else p.refreshValidityMillis
  }

  /** The custom claims of an issued token. */
  function IdClaims(memberId: int, accountId: int): (c: Object)
    ensures Lookup(c, "memberId") == JNum(memberId)
    ensures Lookup(c, "accountId") == JNum(accountId)
    ensures forall i :: 0 <= i < |c| ==> c[i].key in {"memberId", "accountId"}
  {
    [Field("memberId", JNum(memberId)), Field("accountId", JNum(accountId))]
  }

  /** `createToken(member, account, tokenType)` read at clock `now`: the `exp`
      claim is `now + validity` (in `long` arithmetic) written in seconds.
      `OAuth2SuccessHandler` calls one-argument `createAccessToken(memberId)` and
      `createRefreshToken(memberId)`, which this class does not declare; the
      model issues every token with the (memberId, accountId) claims of the
      two-argument form. */
  function CreateToken(p: Provider, memberId: int, accountId: int, tokenType: string, now: int): (t: Token)
    ensures t.Signed? && t.key == p.key && t.header == JWT_HEADER && t.payload.exp.Some?
    ensures CheckHeader(t.header) == Hmac
    ensures Lookup(t.payload.claims, "memberId") == JNum(memberId)
    ensures Lookup(t.payload.claims, "accountId") == JNum(accountId)
    ensures forall i :: 0 <= i < |t.payload.claims| ==> t.payload.claims[i].key in {"memberId", "accountId"}
    ensures var wrapped := JavaLong.Add(now, ValidityFor(p, tokenType));
      && (wrapped >= 0 ==> t.payload.exp.value * 1000 <= wrapped < t.payload.exp.value * 1000 + 1000)
      && (wrapped < 0 ==> t.payload.exp.value * 1000 - 1000 < wrapped <= t.payload.exp.value * 1000)
  {
    IssuedHeaderIsHmac();
    var expiry := JavaLong.Add(now, ValidityFor(p, tokenType));
    Signed(JWT_HEADER, Payload(IdClaims(memberId, accountId), Some(JavaLong.MillisToSeconds(expiry))), p.key)
  }

  /** `createAccessToken`: a token for the ids that lives for the access window. */
  function CreateAccessToken(p: Provider, memberId: int, accountId: int, now: int): (t: Token)
    ensures t.Signed? && t.key == p.key && t.header == JWT_HEADER && t.payload.exp.Some?
    ensures Lookup(t.payload.claims, "memberId") == JNum(memberId)
    ensures Lookup(t.payload.claims, "accountId") == JNum(accountId)
    ensures var wrapped := JavaLong.Add(now, p.accessValidityMillis);
      && (wrapped >= 0 ==> t.payload.exp.value * 1000 <= wrapped < t.payload.exp.value * 1000 + 1000)
      && (wrapped < 0 ==> t.payload.exp.value * 1000 - 1000 < wrapped <= t.payload.exp.value * 1000)
  {
    CreateToken(p, memberId, accountId, ACCESS_TOKEN, now)
  }

  /** `createRefreshToken`: a token for the ids that lives for the refresh window. */
  function CreateRefreshToken(p: Provider, memberId: int, accountId: int, now: int): (t: Token)
    ensures t.Signed? && t.key == p.key && t.header == JWT_HEADER && t.payload.exp.Some?
    ensures Lookup(t.payload.claims, "memberId") == JNum(memberId)
    ensures Lookup(t.payload.claims, "accountId") == JNum(accountId)
    ensures var wrapped := JavaLong.Add(now, p.refreshValidityMillis);
      && (wrapped >= 0 ==> t.payload.exp.value * 1000 <= wrapped < t.payload.exp.value * 1000 + 1000)
      && (wrapped < 0 ==> t.payload.exp.value * 1000 - 1000 < wrapped <= t.payload.exp.value * 1000)
  {
    CreateToken(p, memberId, accountId, REFRESH_TOKEN, now)
  }

  // ---------------------------------------------------------------------
  // Validation

  /** What `validateToken` throws: a `TokenInvalidException` with an error code,
      or the parser's `IllegalArgumentException`, which it does not catch. */
  datatype ValidationError = TokenInvalid(code: ErrorCode) | IllegalArgument

  /** `validateToken`: the specific catch clauses come before the generic one. */
  function ValidateToken(p: Provider, now: int, jwt: Token): (r: Result<(), ValidationError>)
    ensures r.Ok? <==> ParseClaimsJws(p.key, now, jwt).Ok?
    ensures r == Err(TokenInvalid(TOKEN_EXPIRED_ERROR)) <==> ParseClaimsJws(p.key, now, jwt) == Err(Expired)
    ensures r == Err(TokenInvalid(UNSUPPORTED_TOKEN_ERROR)) <==> ParseClaimsJws(p.key, now, jwt) == Err(Unsupported)
    ensures r == Err(TokenInvalid(JWT_ERROR)) <==>
      ParseClaimsJws(p.key, now, jwt) == Err(Malformed) || ParseClaimsJws(p.key, now, jwt) == Err(BadSignature)
    ensures r == Err(IllegalArgument) <==> ParseClaimsJws(p.key, now, jwt) == Err(EmptyArgument)
  {
    match ParseClaimsJws(p.key, now, jwt)
    case Ok(_) => Ok(())
    case Err(Expired) => Err(TokenInvalid(TOKEN_EXPIRED_ERROR))
    case Err(Unsupported) => Err(TokenInvalid(UNSUPPORTED_TOKEN_ERROR))
    case Err(EmptyArgument) => Err(IllegalArgument)
    case Err(_) => Err(TokenInvalid(JWT_ERROR))
  }

  /** What reading a claim throws: the parser's exception, or a
      `NullPointerException` when the claim is absent. */
  datatype ClaimError = ParseFailed(failure: JwtFailure) | NullClaim(name: string)

  /** `getClaims(jwt).get(name).toString()`. */
  function ClaimText(p: Provider, now: int, jwt: Token, name: string): (r: Result<string, ClaimError>)
    ensures r.Ok? <==> ParseClaimsJws(p.key, now, jwt).Ok? && Lookup(jwt.payload.claims, name) != JNull
    ensures r.Ok? ==> r.value == Render(Lookup(jwt.payload.claims, name))
    ensures ParseClaimsJws(p.key, now, jwt).Ok? && Lookup(jwt.payload.claims, name) == JNull ==> r == Err(NullClaim(name))
    ensures ParseClaimsJws(p.key, now, jwt).Err? ==> r == Err(ParseFailed(ParseClaimsJws(p.key, now, jwt).error))
  {
    match ParseClaimsJws(p.key, now, jwt)
    case Err(f) => Err(ParseFailed(f))
    case Ok(payload) =>
      match ToStr(Lookup(payload.claims, name))
      case None => Err(NullClaim(name))
      case Some(s) => Ok(s)
  }

  /** `getMemberIdFromToken`: the text of the `memberId` claim. */
  function MemberIdFromToken(p: Provider, now: int, jwt: Token): (r: Result<string, ClaimError>)
    ensures r.Ok? <==> ParseClaimsJws(p.key, now, jwt).Ok? && Lookup(jwt.payload.claims, "memberId") != JNull
    ensures r.Ok? ==> r.value == Render(Lookup(jwt.payload.claims, "memberId"))
    ensures ParseClaimsJws(p.key, now, jwt).Err? ==> r == Err(ParseFailed(ParseClaimsJws(p.key, now, jwt).error))
  {
    ClaimText(p, now, jwt, "memberId")
  }

  /** `getAccountIdFromToken`: the text of the `accountId` claim. */
  function AccountIdFromToken(p: Provider, now: int, jwt: Token): (r: Result<string, ClaimError>)
    ensures r.Ok? <==> ParseClaimsJws(p.key, now, jwt).Ok? && Lookup(jwt.payload.claims, "accountId") != JNull
    ensures r.Ok? ==> r.value == Render(Lookup(jwt.payload.claims, "accountId"))
    ensures ParseClaimsJws(p.key, now, jwt).Err? ==> r == Err(ParseFailed(ParseClaimsJws(p.key, now, jwt).error))
  {
    ClaimText(p, now, jwt, "accountId")
  }

  // ---------------------------------------------------------------------
  // Authentication

  /** Spring's `User`: username, password and granted authorities. */
  datatype UserDetails = User(username: string, password: string, authorities: seq<string>)

  datatype Principal = UserPrincipal(user: UserDetails) | OtherPrincipal(name: string)

  datatype Credentials = CredText(text: string) | CredNull | CredOther

  /** `UsernamePasswordAuthenticationToken`. */
  datatype Authentication = Authentication(principal: Principal, credentials: Credentials, authorities: seq<string>)

  /** What `getAuthentication` throws: a claim read failed, or `User` rejected
      an empty username with `IllegalArgumentException`. */
  datatype AuthError = ClaimFailed(error: ClaimError) | EmptyUsername

  /** `getAuthentication`: principal username = memberId claim, empty password,
      credentials = accountId claim, no authorities. The token is parsed twice:
      the member id is read at `nowMember`, and the `User` built, before the
      account id is read at `nowAccount`. */
  function GetAuthentication(p: Provider, nowMember: int, nowAccount: int, jwt: Token): (r: Result<Authentication, AuthError>)
    ensures r.Ok? ==>
      && MemberIdFromToken(p, nowMember, jwt).Ok? && AccountIdFromToken(p, nowAccount, jwt).Ok?
      && r.value.principal == UserPrincipal(User(MemberIdFromToken(p, nowMember, jwt).value, "", []))
      && r.value.credentials == CredText(AccountIdFromToken(p, nowAccount, jwt).value)
      && r.value.authorities == []
    ensures r.Ok? <==> (ParseClaimsJws(p.key, nowMember, jwt).Ok? && ParseClaimsJws(p.key, nowAccount, jwt).Ok?
      && Lookup(jwt.payload.claims, "memberId") != JNull && Lookup(jwt.payload.claims, "accountId") != JNull
      && Render(Lookup(jwt.payload.claims, "memberId")) != "")
  {
    match MemberIdFromToken(p, nowMember, jwt)
    case Err(e) => Err(ClaimFailed(e))
    case Ok(member) =>
      if member == "" then Err(EmptyUsername)
      else
        match AccountIdFromToken(p, nowAccount, jwt)
        case Err(e) => Err(ClaimFailed(e))
        case Ok(account) => Ok(Authentication(UserPrincipal(User(member, "", [])), CredText(account), []))
  }

  /** The request's security context, passed explicitly. */
  datatype SecurityContext = SecurityContext(authentication: Option<Authentication>)

  /** What the context accessors throw: no authentication (`NullPointerException`),
      a principal or credential of the wrong class (`ClassCastException`), or a
      `NumberFormatException` from `Long.valueOf`. */
  datatype ContextError = NoAuthentication | PrincipalNotUser | CredentialsNotString | NotANumber(error: JavaLong.NumberFormatError)

  /** `getMemberIdFromContext`: `Long.valueOf` of the principal's username. */
  function MemberIdFromContext(ctx: SecurityContext): (r: Result<int, ContextError>)
    ensures r.Ok? ==> (ctx.authentication.Some? && ctx.authentication.value.principal.UserPrincipal?
      && JavaLong.ValueOf(Some(ctx.authentication.value.principal.user.username)) == Ok(r.value))
    ensures ctx.authentication.None? ==> r == Err(NoAuthentication)
    ensures ctx.authentication.Some? && ctx.authentication.value.principal.OtherPrincipal? ==> r == Err(PrincipalNotUser)
    ensures ctx.authentication.Some? && ctx.authentication.value.principal.UserPrincipal? ==>
      var parsed := JavaLong.ValueOf(Some(ctx.authentication.value.principal.user.username));
      && (parsed.Ok? ==> r == Ok(parsed.value))
      && (parsed.Err? ==> r == Err(NotANumber(parsed.error)))
  {
    match ctx.authentication
    case None => Err(NoAuthentication)
    case Some(auth) =>
      match auth.principal
      case OtherPrincipal(_) => Err(PrincipalNotUser)
      case UserPrincipal(user) =>
        match JavaLong.ValueOf(Some(user.username))
        case Err(e) => Err(NotANumber(e))
        case Ok(id) => Ok(id)
  }

  /** `getAccountIdFromContext`: `Long.valueOf` of the credentials cast to
      `String`; a null credential passes the cast and fails in `Long.valueOf`. */
  function AccountIdFromContext(ctx: SecurityContext): (r: Result<int, ContextError>)
    ensures r.Ok? ==> (ctx.authentication.Some? && ctx.authentication.value.credentials.CredText?
      && JavaLong.ValueOf(Some(ctx.authentication.value.credentials.text)) == Ok(r.value))
    ensures ctx.authentication.None? ==> r == Err(NoAuthentication)
    ensures ctx.authentication.Some? && ctx.authentication.value.credentials.CredNull? ==>
      r == Err(NotANumber(JavaLong.NullString))
    ensures ctx.authentication.Some? && ctx.authentication.value.credentials.CredOther? ==> r == Err(CredentialsNotString)
    ensures ctx.authentication.Some? && ctx.authentication.value.credentials.CredText? ==>
      var parsed := JavaLong.ValueOf(Some(ctx.authentication.value.credentials.text));
      && (parsed.Ok? ==> r == Ok(parsed.value))
      && (parsed.Err? ==> r == Err(NotANumber(parsed.error)))
  {
    match ctx.authentication
    case None => Err(NoAuthentication)
    case Some(auth) =>
      match auth.credentials
      case CredOther => Err(CredentialsNotString)
      case CredNull => Err(NotANumber(JavaLong.NullString))
      case CredText(text) =>
        match JavaLong.ValueOf(Some(text))
        case Err(e) => Err(NotANumber(e))
        case Ok(id) => Ok(id)
  }

  // ---------------------------------------------------------------------
  // Reissue

  datatype AuthTokens = AuthTokens(accessToken: Token, refreshToken: Token)

  /** `reissueTokens(member, account)`: a fresh pair for the member and account,
      the refresh token recorded on the account. The two tokens read the clock
      separately. */
  function ReissueTokens(p: Provider, member: Member, account: Account, nowAccess: int, nowRefresh: int): (r: (AuthTokens, Account))
    ensures r.1.refreshToken == Some(r.0.refreshToken)
    ensures r.1.(refreshToken := account.refreshToken) == account
    ensures r.0.accessToken == CreateAccessToken(p, member.memberId, account.accountId, nowAccess)
    ensures r.0.refreshToken == CreateRefreshToken(p, member.memberId, account.accountId, nowRefresh)
  {
    var tokens := AuthTokens(CreateAccessToken(p, member.memberId, account.accountId, nowAccess),
                             CreateRefreshToken(p, member.memberId, account.accountId, nowRefresh));
    (tokens, account.Login(tokens.refreshToken))
  }

  // ---------------------------------------------------------------------
  // Properties of issued tokens

  /** The instant, in milliseconds, from which a token issued at `now` is past its validity window. */
  function ExpiryMillis(p: Provider, tokenType: string, now: int): int
  {
    now + ValidityFor(p, tokenType)
  }

  /** A token read back with the issuing key before its window closes (less
      the sub-second the library drops by writing `exp` in seconds) validates,
      and its claims give back the member id and account id it was issued for. */
  lemma IssuedTokenRoundTrip(p: Provider, memberId: int, accountId: int, tokenType: string, now: int, later: int)
    requires JavaLong.IsLong(ExpiryMillis(p, tokenType, now)) && ExpiryMillis(p, tokenType, now) >= 0
    requires later + 999 <= ExpiryMillis(p, tokenType, now)
    ensures var t := CreateToken(p, memberId, accountId, tokenType, now);
      && ParseClaimsJws(p.key, later, t) == Ok(t.payload)
      && ValidateToken(p, later, t) == Ok(())
      && MemberIdFromToken(p, later, t) == Ok(JavaLong.ToDecimal(memberId))
      && AccountIdFromToken(p, later, t) == Ok(JavaLong.ToDecimal(accountId))
  {
    var t := CreateToken(p, memberId, accountId, tokenType, now);
    var exp := t.payload.exp.value;
    assert 0 <= exp * 1000 <= ExpiryMillis(p, tokenType, now);
    assert JavaLong.Mul(exp, 1000) == exp * 1000;
    assert !IsExpired(t.payload, later);
  }

  /** Strictly after its validity window a token issued by this provider is
      rejected as expired. */
  lemma IssuedTokenExpires(p: Provider, memberId: int, accountId: int, tokenType: string, now: int, later: int)
    requires JavaLong.IsLong(ExpiryMillis(p, tokenType, now)) && ExpiryMillis(p, tokenType, now) >= 0
    requires later > ExpiryMillis(p, tokenType, now)
    ensures ValidateToken(p, later, CreateToken(p, memberId, accountId, tokenType, now)) == Err(TokenInvalid(TOKEN_EXPIRED_ERROR))
  {
    var t := CreateToken(p, memberId, accountId, tokenType, now);
    var exp := t.payload.exp.value;
    assert 0 <= exp * 1000 <= ExpiryMillis(p, tokenType, now);
    assert JavaLong.Mul(exp, 1000) == exp * 1000;
    assert IsExpired(t.payload, later);
  }

  /** A token signed with another key never validates: it is a generic JWT error,
      at any time. */
  lemma ForeignTokenRejected(issuer: Provider, verifier: Provider, memberId: int, accountId: int, tokenType: string, now: int, later: int)
    requires issuer.key != verifier.key
    ensures ValidateToken(verifier, later, CreateToken(issuer, memberId, accountId, tokenType, now)) == Err(TokenInvalid(JWT_ERROR))
  {
  }

  /** A signed token whose header names an RSA, EC or PSS algorithm cannot be
      checked with the HMAC key, which the parser reports as unsupported,
      whatever key signed it and whatever the time. */
  lemma AsymmetricHeaderUnsupported(p: Provider, now: int, a: SignatureAlgorithm, typ: string, pl: Payload, k: SecretKey)
    requires a != NONE && !a.IsHmac()
    ensures ValidateToken(p, now, Signed(Header(typ, a.Value()), pl, k)) == Err(TokenInvalid(UNSUPPORTED_TOKEN_ERROR))
  {
    assert !IsWhitespace(a.Value()[0]);
  }

  /** A signature over a header whose `alg` is `none`, in any case, or blank is
      malformed, even on a live token under the provider's own key. */
  lemma NoneHeaderRejected(p: Provider, now: int, typ: string, pl: Payload)
    ensures ValidateToken(p, now, Signed(Header(typ, "none"), pl, p.key)) == Err(TokenInvalid(JWT_ERROR))
    ensures ValidateToken(p, now, Signed(Header(typ, "NONE"), pl, p.key)) == Err(TokenInvalid(JWT_ERROR))
    ensures ValidateToken(p, now, Signed(Header(typ, " "), pl, p.key)) == Err(TokenInvalid(JWT_ERROR))
  {
    assert EqualsIgnoreCase(NONE.Value(), "NONE");
  }

  /** An `alg` that names no algorithm fails `forName`: a generic JWT error. */
  lemma UnknownAlgorithmRejected(p: Provider, now: int, typ: string, pl: Payload)
    ensures ValidateToken(p, now, Signed(Header(typ, "HS257"), pl, p.key)) == Err(TokenInvalid(JWT_ERROR))
  {
    forall a: SignatureAlgorithm ensures !EqualsIgnoreCase(a.Value(), "HS257") {
      if |a.Value()| == 5 {
        assert UpperCase(a.Value()[4]) != UpperCase("HS257"[4]);
      }
    }
    assert !IsWhitespace("HS257"[0]);
  }

  /** The algorithm name is matched ignoring case: a live token headed
      `hs256` and signed with the provider's key validates. */
  lemma LowerCaseAlgorithmAccepted(p: Provider, now: int, typ: string, pl: Payload)
    requires !IsExpired(pl, now)
    ensures ValidateToken(p, now, Signed(Header(typ, "hs256"), pl, p.key)) == Ok(())
  {
    assert EqualsIgnoreCase(HS256.Value(), "hs256");
    assert !IsWhitespace("hs256"[0]);
  }

  /** An access and a refresh token for the same ids carry the same header, key
      and claims: only `exp` differs, and no claim records the token's kind. With
      the clock read at the same instant, the refresh token lives at least as
      long when its window is at least as long. */
  lemma AccessAndRefreshDifferOnlyInExpiry(p: Provider, memberId: int, accountId: int, nowAccess: int, nowRefresh: int)
    ensures var access := CreateAccessToken(p, memberId, accountId, nowAccess);
      var refresh := CreateRefreshToken(p, memberId, accountId, nowRefresh);
      && access.header == refresh.header && access.key == refresh.key
      && access.payload.claims == refresh.payload.claims
    ensures var access := CreateAccessToken(p, memberId, accountId, nowAccess);
      var refresh := CreateRefreshToken(p, memberId, accountId, nowRefresh);
      nowAccess == nowRefresh && p.accessValidityMillis <= p.refreshValidityMillis
      && 0 <= nowAccess + p.accessValidityMillis && JavaLong.IsLong(nowRefresh + p.refreshValidityMillis)
      ==> access.payload.exp.value <= refresh.payload.exp.value
  {
    var access := CreateAccessToken(p, memberId, accountId, nowAccess);
    var refresh := CreateRefreshToken(p, memberId, accountId, nowRefresh);
    if nowAccess == nowRefresh && p.accessValidityMillis <= p.refreshValidityMillis
      && 0 <= nowAccess + p.accessValidityMillis && JavaLong.IsLong(nowRefresh + p.refreshValidityMillis)
    {
      var a := nowAccess + p.accessValidityMillis;
      var r := nowRefresh + p.refreshValidityMillis;
      assert JavaLong.Add(nowAccess, p.accessValidityMillis) == a;
      assert JavaLong.Add(nowRefresh, p.refreshValidityMillis) == r;
      assert a / 1000 <= r / 1000;
    }
  }

  /** The ids read back from the security context that holds the authentication
      built from a live token are the numbers the token was issued for. */
  lemma ContextRoundTrip(p: Provider, memberId: int, accountId: int, tokenType: string, now: int, readMember: int, readAccount: int)
    requires JavaLong.IsLong(memberId) && JavaLong.IsLong(accountId)
    requires JavaLong.IsLong(ExpiryMillis(p, tokenType, now)) && ExpiryMillis(p, tokenType, now) >= 0
    requires readMember + 999 <= ExpiryMillis(p, tokenType, now) && readAccount + 999 <= ExpiryMillis(p, tokenType, now)
    ensures var auth := GetAuthentication(p, readMember, readAccount, CreateToken(p, memberId, accountId, tokenType, now));
      && auth.Ok?
      && auth.value.principal.UserPrincipal? && auth.value.authorities == []
      && MemberIdFromContext(SecurityContext(Some(auth.value))) == Ok(memberId)
      && AccountIdFromContext(SecurityContext(Some(auth.value))) == Ok(accountId)
  {
    IssuedTokenRoundTrip(p, memberId, accountId, tokenType, now, readMember);
    IssuedTokenRoundTrip(p, memberId, accountId, tokenType, now, readAccount);
    JavaLong.DecimalRoundTrip(memberId);
    JavaLong.DecimalRoundTrip(accountId);
    JavaLong.ToDecimalNonEmpty(memberId);
  }

  /** The token is parsed once per claim, so one that expires between the two
      reads fails on the second: the member id was read, the account id is not. */
  lemma ExpiryBetweenReads(p: Provider, memberId: int, accountId: int, tokenType: string, now: int, readMember: int, readAccount: int)
    requires JavaLong.IsLong(memberId)
    requires JavaLong.IsLong(ExpiryMillis(p, tokenType, now)) && ExpiryMillis(p, tokenType, now) >= 0
    requires readMember + 999 <= ExpiryMillis(p, tokenType, now) < readAccount
    ensures var t := CreateToken(p, memberId, accountId, tokenType, now);
      && MemberIdFromToken(p, readMember, t).Ok?
      && GetAuthentication(p, readMember, readAccount, t) == Err(ClaimFailed(ParseFailed(Expired)))
  {
    IssuedTokenRoundTrip(p, memberId, accountId, tokenType, now, readMember);
    IssuedTokenExpires(p, memberId, accountId, tokenType, now, readAccount);
    JavaLong.ToDecimalNonEmpty(memberId);
  }

  /** Reissuing gives the account a refresh token that, like the access token
      returned with it, validates while live and names the member and the account. */
  lemma ReissuedTokensIdentifyAccount(p: Provider, member: Member, account: Account, nowAccess: int, nowRefresh: int, later: int)
    requires JavaLong.IsLong(nowAccess + p.accessValidityMillis) && later + 999 <= nowAccess + p.accessValidityMillis
    requires JavaLong.IsLong(nowRefresh + p.refreshValidityMillis) && later + 999 <= nowRefresh + p.refreshValidityMillis
    requires later >= 0
    ensures var (tokens, account') := ReissueTokens(p, member, account, nowAccess, nowRefresh);
      && account'.refreshToken == Some(tokens.refreshToken)
      && ValidateToken(p, later, tokens.accessToken) == Ok(())
      && ValidateToken(p, later, tokens.refreshToken) == Ok(())
      && MemberIdFromToken(p, later, tokens.refreshToken) == Ok(JavaLong.ToDecimal(member.memberId))
      && AccountIdFromToken(p, later, tokens.refreshToken) == Ok(JavaLong.ToDecimal(account.accountId))
      && MemberIdFromToken(p, later, tokens.accessToken) == Ok(JavaLong.ToDecimal(member.memberId))
      && AccountIdFromToken(p, later, tokens.accessToken) == Ok(JavaLong.ToDecimal(account.accountId))
  {
    IssuedTokenRoundTrip(p, member.memberId, account.accountId, ACCESS_TOKEN, nowAccess, later);
    IssuedTokenRoundTrip(p, member.memberId, account.accountId, REFRESH_TOKEN, nowRefresh, later);
  }

  /** Two configured secrets with the same decoded bytes make the same key, so
      each provider accepts the other's live tokens. */
  lemma SameSecretBytesShareTokens(secret1: string, secret2: string, accessSec: int, refreshSec: int,
                                   memberId: int, accountId: int, tokenType: string, now: int, later: int)
    requires JavaLong.IsLong(accessSec) && JavaLong.IsLong(refreshSec)
    requires DatatypeConverter.ParseBase64Binary(secret1) == DatatypeConverter.ParseBase64Binary(secret2)
    requires var p := NewProvider(secret1, accessSec, refreshSec);
      JavaLong.IsLong(ExpiryMillis(p, tokenType, now)) && ExpiryMillis(p, tokenType, now) >= later + 999 >= 999
    ensures NewProvider(secret1, accessSec, refreshSec) == NewProvider(secret2, accessSec, refreshSec)
    ensures ValidateToken(NewProvider(secret2, accessSec, refreshSec), later,
                          CreateToken(NewProvider(secret1, accessSec, refreshSec), memberId, accountId, tokenType, now)) == Ok(())
  {
    IssuedTokenRoundTrip(NewProvider(secret1, accessSec, refreshSec), memberId, accountId, tokenType, now, later);
  }

  /** A secret with a space in it is the same key as the secret without it. */
  lemma SpacedSecretSameKey(accessSec: int, refreshSec: int)
    requires JavaLong.IsLong(accessSec) && JavaLong.IsLong(refreshSec)
    ensures NewProvider("c2VjcmV0", accessSec, refreshSec) == NewProvider("c2Vj cmV0", accessSec, refreshSec)
  {
    assert "c2Vj" + [' '] + "cmV0" == "c2Vj cmV0";
    assert "c2Vj" + "cmV0" == "c2VjcmV0";
    DatatypeConverter.SkippedCharacterIgnored("c2Vj", ' ', "cmV0");
  }
}

=== FILE: oauth2_success_handler.dfy ===
/** `OAuth2SuccessHandler.onAuthenticationSuccess`: after the provider has
    authenticated the user, resolve the Account for the identity and either
    create it (sign-up required), log the member in with a fresh token pair,
    or report the existing account as awaiting sign-up. The account and member
    repositories are maps; the whole call is one transaction, so a thrown
    exception leaves the state as it was. */
module OAuth2SuccessHandler {
  import opened Wrappers
  import opened Domain
  import opened Jwt
  import JwtTokenProvider
  import SocialLoad
  import JavaLong

  /** The unique lookup key of an Account. */
  datatype SocialKey = SocialKey(socialId: string, socialType: SocialType)

  /** The persisted records the handler reads and writes: accounts by social
      key, members by the id of the account they are linked to, and the next
      account id the database will assign. */
  datatype AuthState = AuthState(accounts: map<SocialKey, Account>, members: map<int, Member>, nextAccountId: int)

  /** The flag a newly saved Account carries: registration later sets it to YES. */
  const NEW_ACCOUNT_FLAG: Option<FlagYn> := Some(NO)

  const SC_OK: int := 200
  const APPLICATION_JSON: string := "application/json"
  const UTF_8: string := "UTF-8"

  /** Each account is filed under its own key, account ids are distinct and
      below the next id, and each member is filed under its own account. */
  ghost predicate Valid(st: AuthState)
  {
    && (forall k :: k in st.accounts ==>
          && st.accounts[k].socialId == k.socialId && st.accounts[k].socialType == k.socialType
          && st.accounts[k].accountId < st.nextAccountId)
    && (forall k1, k2 :: k1 in st.accounts && k2 in st.accounts && st.accounts[k1].accountId == st.accounts[k2].accountId ==> k1 == k2)
    && (forall id :: id in st.members ==> st.members[id].accountId == id)
  }

  function KeyOf(principal: SocialLoad.Identity): (k: SocialKey)
  {
    SocialKey(principal.socialId, principal.socialType)
  }

  /** `authService.getAccount(principal)`: the Account with the principal's
      social id and type, if any. */
  function GetAccount(st: AuthState, principal: SocialLoad.Identity): (r: Option<Account>)
    ensures r.Some? <==> KeyOf(principal) in st.accounts
    ensures r.Some? ==> r.value == st.accounts[KeyOf(principal)]
  {
    var k := KeyOf(principal);
    if k in st.accounts then Some(st.accounts[k]) else None
  }

  /** The unsaved Account the handler builds from the principal. */
  function DraftOf(principal: SocialLoad.Identity): (d: AccountDraft)
  {
    AccountDraft(principal.socialId, principal.socialType, principal.email, principal.profileImgUrl)
  }

  /** `authService.createAccount(draft)`: saves the draft under the next id. */
  function CreateAccount(st: AuthState, draft: AccountDraft): (r: (AuthState, int))
    ensures r.1 == st.nextAccountId && r.0.nextAccountId > r.1
    ensures r.0.members == st.members
    ensures var k := SocialKey(draft.socialId, draft.socialType);
      && k in r.0.accounts && r.0.accounts.Keys == st.accounts.Keys + {k}
      && r.0.accounts[k] == Account(r.1, draft.socialId, draft.socialType, draft.email, draft.profileImageUrl, NEW_ACCOUNT_FLAG, None)
      && forall k' :: k' in st.accounts && k' != k ==> r.0.accounts[k'] == st.accounts[k']
  {
    var id := st.nextAccountId;
    var account := Account(id, draft.socialId, draft.socialType, draft.email, draft.profileImageUrl, NEW_ACCOUNT_FLAG, None);
    (st.(accounts := st.accounts[SocialKey(draft.socialId, draft.socialType) := account], nextAccountId := id + 1), id)
  }

  /** `memberService.getMemberByAccount(account)`: the Member linked to the account, if any. */
  function GetMemberByAccount(st: AuthState, account: Account): (r: Option<Member>)
    ensures r.Some? <==> account.accountId in st.members
    ensures r.Some? ==> r.value == st.members[account.accountId]
    ensures Valid(st) && r.Some? ==> r.value.accountId == account.accountId
  {
    if account.accountId in st.members then Some(st.members[account.accountId]) else None
  }

  /** The payloads the handler writes (`ApiResultDto.success` of ...). */
  datatype ApiResult =
    | OAuth2Success(accountId: int)
    | Login(accessToken: Token, refreshToken: Token)

  /** The servlet response: status, content type, encoding and the sequence of
      bodies written to it. */
  datatype Response = Response(status: int, contentType: string, encoding: string, body: seq<ApiResult>)

  /** `NotFoundException`: an account flagged as a member has no Member. */
  datatype HandlerError = MemberNotFound

  datatype Outcome = Handled(state: AuthState, response: Response) | Failed(error: HandlerError)

  function Respond(body: seq<ApiResult>): (r: Response)
    ensures r.status == SC_OK && r.contentType == APPLICATION_JSON && r.encoding == UTF_8
    ensures r.body == body
  {
    Response(SC_OK, APPLICATION_JSON, UTF_8, body)
  }

  /** `isPresentAndMember`: the account exists and is flagged as a member. */
  predicate IsPresentAndMember(account: Option<Account>): (b: bool)
    ensures b ==> account.Some? && account.value.memberYn.Some?
    ensures account.None? ==> !b
  {
    account.Some? && account.value.memberYn == Some(YES)
  }

  /** `isPresentButNotMember`, only called once the account is known to exist
      (`Optional.get` on an empty account would throw). */
  predicate IsPresentButNotMember(account: Option<Account>): (b: bool)
    requires account.Some?
    ensures b ==> account.value.memberYn.Some? && !IsPresentAndMember(account)
  {
    account.value.memberYn == Some(NO)
  }

  /** `onAuthenticationSuccess` with the provider `p` and the two clock readings
      taken by the access and the refresh token. */
  function OnAuthenticationSuccess(p: JwtTokenProvider.Provider, st: AuthState, principal: SocialLoad.Identity,
                                   nowAccess: int, nowRefresh: int): (r: Outcome)
    ensures r.Handled? ==> r.response.status == SC_OK && r.response.contentType == APPLICATION_JSON && r.response.encoding == UTF_8
    // no account: create one from the principal and ask for sign-up, no token
    ensures KeyOf(principal) !in st.accounts ==>
      && r.Handled?
      && r == Handled(CreateAccount(st, DraftOf(principal)).0, Respond([OAuth2Success(st.nextAccountId)]))
    // member without a Member record: fail, nothing persisted
    ensures (KeyOf(principal) in st.accounts && st.accounts[KeyOf(principal)].memberYn == Some(YES)
      && st.accounts[KeyOf(principal)].accountId !in st.members) ==> r == Failed(MemberNotFound)
    // member: a token pair for the member and account, the refresh token recorded
    ensures (KeyOf(principal) in st.accounts && st.accounts[KeyOf(principal)].memberYn == Some(YES)
      && st.accounts[KeyOf(principal)].accountId in st.members) ==>
      var account := st.accounts[KeyOf(principal)];
      var memberId := st.members[account.accountId].memberId;
      var access := JwtTokenProvider.CreateAccessToken(p, memberId, account.accountId, nowAccess);
      var refresh := JwtTokenProvider.CreateRefreshToken(p, memberId, account.accountId, nowRefresh);
      && r.Handled?
      && r.response.body == [Login(access, refresh)]
      && r.state == st.(accounts := st.accounts[KeyOf(principal) := account.Login(refresh)])
    // not a member: report the existing account id, nothing persisted
    ensures KeyOf(principal) in st.accounts && st.accounts[KeyOf(principal)].memberYn == Some(NO) ==>
      r == Handled(st, Respond([OAuth2Success(st.accounts[KeyOf(principal)].accountId)]))
    // flag not set: neither branch runs and nothing is written
    ensures KeyOf(principal) in st.accounts && st.accounts[KeyOf(principal)].memberYn.None? ==>
      r == Handled(st, Respond([]))
  {
    var optionalAccount := GetAccount(st, principal);
    if optionalAccount.None? then
      var (st', accountId) := CreateAccount(st, DraftOf(principal));
      Handled(st', Respond([OAuth2Success(accountId)]))
    else
      var account := optionalAccount.value;
      if IsPresentAndMember(optionalAccount) then
        match GetMemberByAccount(st, account)
        case None => Failed(MemberNotFound)
        case Some(member) =>
          var access := JwtTokenProvider.CreateAccessToken(p, member.memberId, account.accountId, nowAccess);
          var refresh := JwtTokenProvider.CreateRefreshToken(p, member.memberId, account.accountId, nowRefresh);
          Handled(st.(accounts := st.accounts[KeyOf(principal) := account.Login(refresh)]), Respond([Login(access, refresh)]))
      else if IsPresentButNotMember(optionalAccount) then
        Handled(st, Respond([OAuth2Success(account.accountId)]))
      else
        Handled(st, Respond([]))
  }

  // ---------------------------------------------------------------------
  // Properties of the flow

  /** The Account the handler builds from the principal is the one the
      principal's own provider strategy would make. */
  lemma DraftIsStrategyAccount(principal: SocialLoad.Identity)
    ensures DraftOf(principal) == SocialLoad.MakeAccount(principal.socialType, principal)
  {
  }

  /** For an existing account the two flag checks split the cases: a member, a
      non-member, or an unset flag, exactly one of them. */
  lemma FlagChecksPartition(account: Account)
    ensures IsPresentAndMember(Some(account)) <==> account.memberYn == Some(YES)
    ensures IsPresentButNotMember(Some(account)) <==> account.memberYn == Some(NO)
    ensures !IsPresentAndMember(Some(account)) && !IsPresentButNotMember(Some(account)) <==> account.memberYn.None?
    ensures !(IsPresentAndMember(Some(account)) && IsPresentButNotMember(Some(account)))
  {
    match account.memberYn
    case None =>
    case Some(flag) => assert flag == YES || flag == NO;
  }

  /** The handler keeps the store well formed. */
  lemma HandlerPreservesValid(p: JwtTokenProvider.Provider, st: AuthState, principal: SocialLoad.Identity, nowAccess: int, nowRefresh: int)
    requires Valid(st)
    ensures var r := OnAuthenticationSuccess(p, st, principal, nowAccess, nowRefresh);
      r.Handled? ==> Valid(r.state)
  {
    var r := OnAuthenticationSuccess(p, st, principal, nowAccess, nowRefresh);
    var k := KeyOf(principal);
    if r.Handled? && k !in st.accounts {
      var st' := r.state;
      forall k1, k2 | k1 in st'.accounts && k2 in st'.accounts && st'.accounts[k1].accountId == st'.accounts[k2].accountId
        ensures k1 == k2
      {
        if k1 != k && k2 != k {
          assert st'.accounts[k1] == st.accounts[k1];
        }
      }
    }
  }

  /** An existing account is never replaced: the key set and the other accounts
      stay as they were, and the account itself changes at most in its stored
      refresh token. No member is created or removed. */
  lemma ExistingAccountNeverReplaced(p: JwtTokenProvider.Provider, st: AuthState, principal: SocialLoad.Identity, nowAccess: int, nowRefresh: int)
    requires KeyOf(principal) in st.accounts
    ensures var r := OnAuthenticationSuccess(p, st, principal, nowAccess, nowRefresh);
      r.Handled? ==>
        && r.state.accounts.Keys == st.accounts.Keys
        && r.state.nextAccountId == st.nextAccountId
        && r.state.members == st.members
        && r.state.accounts[KeyOf(principal)].(refreshToken := st.accounts[KeyOf(principal)].refreshToken) == st.accounts[KeyOf(principal)]
        && forall k :: k in st.accounts && k != KeyOf(principal) ==> r.state.accounts[k] == st.accounts[k]
  {
  }

  /** Exactly one body is written when the account is new or its flag is YES
      or NO; a token pair is written only when a flagged member logs in. */
  lemma OneResponsePerBranch(p: JwtTokenProvider.Provider, st: AuthState, principal: SocialLoad.Identity, nowAccess: int, nowRefresh: int)
    ensures var r := OnAuthenticationSuccess(p, st, principal, nowAccess, nowRefresh);
      r.Handled? ==>
        (|r.response.body| == 1 <==> (KeyOf(principal) in st.accounts ==> st.accounts[KeyOf(principal)].memberYn.Some?))
    ensures var r := OnAuthenticationSuccess(p, st, principal, nowAccess, nowRefresh);
      (r.Handled? && |r.response.body| == 1 && r.response.body[0].Login?) <==>
        (KeyOf(principal) in st.accounts && st.accounts[KeyOf(principal)].memberYn == Some(YES)
         && st.accounts[KeyOf(principal)].accountId in st.members)
  {
    var k := KeyOf(principal);
    if k in st.accounts {
      match st.accounts[k].memberYn
      case None =>
      case Some(YES) =>
      case Some(NO) =>
    }
  }

  /** On a member login, both tokens are issued for the member and its account:
      the stored refresh token is the one returned, and while it is live each
      token validates and reads back as that member id and account id. */
  lemma LoginTokensIdentifyMember(p: JwtTokenProvider.Provider, st: AuthState, principal: SocialLoad.Identity,
                                  nowAccess: int, nowRefresh: int, later: int)
    requires KeyOf(principal) in st.accounts && st.accounts[KeyOf(principal)].memberYn == Some(YES)
    requires st.accounts[KeyOf(principal)].accountId in st.members
    requires JavaLong.IsLong(nowAccess + p.accessValidityMillis) && nowAccess + p.accessValidityMillis >= later + 999
    requires JavaLong.IsLong(nowRefresh + p.refreshValidityMillis) && nowRefresh + p.refreshValidityMillis >= later + 999
    requires later >= 0
    ensures var r := OnAuthenticationSuccess(p, st, principal, nowAccess, nowRefresh);
      var account := st.accounts[KeyOf(principal)];
      var memberId := st.members[account.accountId].memberId;
      && r.Handled? && |r.response.body| == 1 && r.response.body[0].Login?
      && r.state.accounts[KeyOf(principal)].refreshToken == Some(r.response.body[0].refreshToken)
      && JwtTokenProvider.MemberIdFromToken(p, later, r.response.body[0].accessToken) == Ok(JavaLong.ToDecimal(memberId))
      && JwtTokenProvider.MemberIdFromToken(p, later, r.response.body[0].refreshToken) == Ok(JavaLong.ToDecimal(memberId))
      && JwtTokenProvider.AccountIdFromToken(p, later, r.response.body[0].accessToken) == Ok(JavaLong.ToDecimal(account.accountId))
      && JwtTokenProvider.AccountIdFromToken(p, later, r.response.body[0].refreshToken) == Ok(JavaLong.ToDecimal(account.accountId))
  {
    var account := st.accounts[KeyOf(principal)];
    var memberId := st.members[account.accountId].memberId;
    JwtTokenProvider.IssuedTokenRoundTrip(p, memberId, account.accountId, JwtTokenProvider.ACCESS_TOKEN, nowAccess, later);
    JwtTokenProvider.IssuedTokenRoundTrip(p, memberId, account.accountId, JwtTokenProvider.REFRESH_TOKEN, nowRefresh, later);
  }

  /** A second login with the same identity finds the account the first one
      created: it reports the same account id, creates nothing and changes nothing. */
  lemma SecondLoginFindsCreatedAccount(p: JwtTokenProvider.Provider, st: AuthState, principal: SocialLoad.Identity,
                                       nowAccess: int, nowRefresh: int)
    requires KeyOf(principal) !in st.accounts
    ensures var first := OnAuthenticationSuccess(p, st, principal, nowAccess, nowRefresh);
      && first.Handled?
      && OnAuthenticationSuccess(p, first.state, principal, nowAccess, nowRefresh)
         == Handled(first.state, Respond([OAuth2Success(st.nextAccountId)]))
  {
  }
}

=== FILE: social_load.dfy ===
/** The social-provider strategies: each turns the provider's user-info response
    body into a flat identity record and that record into an unsaved Account,
    and builds the bearer-authorised request for the user-info call. The HTTP
    exchange itself is not modelled: the deserialised body is an input. */
module SocialLoad {
  import opened Wrappers
  import opened Json
  import opened Domain
  import JwtTokenProvider
  import JavaLong

  /** The flat identity a strategy produces (`CustomOAuth2UserInfo`). */
  datatype Identity = Identity(socialId: string, email: string, profileImgUrl: string, socialType: SocialType)

  /** What reading the body throws: a `NullPointerException` or a
      `ClassCastException` at the named key, or Naver's `LoginDisableException`. */
  datatype LoadError = NullPointer(at: string) | ClassCast(at: string) | LoginDisable

  /** An outbound request: header pairs and form parameters. */
  datatype Request = Request(headers: seq<(string, string)>, params: seq<(string, string)>)

  const AUTHORIZATION: string := "Authorization"

  // ---------------------------------------------------------------------
  // Request preparation (identical for both providers)

  /** `prepareRequest`: one `Authorization: Bearer <token>` header and no parameters. */
  function PrepareRequest(provider: SocialType, accessToken: string): (req: Request)
    ensures |req.headers| == 1 && req.headers[0].0 == AUTHORIZATION
    ensures req.params == []
    ensures BearerCredential(req) == Some(accessToken)
  {
    Request([(AUTHORIZATION, JwtTokenProvider.TOKEN_PREFIX + accessToken)], [])
  }

  /** The credential a receiver reads from the first `Authorization` header
      that carries the `Bearer ` prefix. */
  function BearerCredential(req: Request): Option<string>
  {
    BearerIn(req.headers)
  }

  function BearerIn(headers: seq<(string, string)>): Option<string>
  {
    var p := JwtTokenProvider.TOKEN_PREFIX;
    if |headers| == 0 then None
    else if headers[0].0 == AUTHORIZATION && p <= headers[0].1 then Some(headers[0].1[|p|..])
    else BearerIn(headers[1..])
  }

  // ---------------------------------------------------------------------
  // Kakao

  /** `KakaoLoadStrategy.makeOAuth2User`, reading in the order the Java code
      does: `kakao_account` (cast, then dereferenced), `profile` (cast),
      `kakao_account.email`, the top-level `id`, then `profile.thumbnail_image_url`. */
  function KakaoUser(attrs: Option<Object>): (r: Result<Identity, LoadError>)
    ensures r.Ok? <==> KakaoShaped(attrs)
    ensures r.Ok? ==> r.value.socialType == Kakao
    ensures r.Ok? ==> var a := attrs.value; var account := Lookup(a, "kakao_account").fields;
      && r.value.socialId == Render(Lookup(a, "id"))
      && r.value.email == Render(Lookup(account, "email"))
      && r.value.profileImgUrl == Render(Lookup(Lookup(account, "profile").fields, "thumbnail_image_url"))
  {
    match attrs
    case None => Err(NullPointer("attributes"))
    case Some(a) =>
      match AsObject(Lookup(a, "kakao_account"))
      case Err(_) => Err(ClassCast("kakao_account"))
      case Ok(None) => Err(NullPointer("kakao_account"))
      case Ok(Some(account)) =>
        match AsObject(Lookup(account, "profile"))
        case Err(_) => Err(ClassCast("profile"))
        case Ok(profile) =>
          match ToStr(Lookup(account, "email"))
          case None => Err(NullPointer("email"))
          case Some(email) =>
            match ToStr(Lookup(a, "id"))
            case None => Err(NullPointer("id"))
            case Some(id) =>
              match profile
              case None => Err(NullPointer("profile"))
              case Some(p) =>
                match ToStr(Lookup(p, "thumbnail_image_url"))
                case None => Err(NullPointer("thumbnail_image_url"))
                case Some(url) => Ok(Identity(id, email, url, Kakao))
  }

  /** The body shape Kakao normalisation accepts, stated field by field:
      `kakao_account` and its `profile` are objects, and `id`, `email` and
      `thumbnail_image_url` are present and not null. `nickname` is not needed. */
  predicate KakaoShaped(attrs: Option<Object>)
  {
    && attrs.Some?
    && Lookup(attrs.value, "kakao_account").JObj?
    && Lookup(Lookup(attrs.value, "kakao_account").fields, "profile").JObj?
    && Lookup(Lookup(attrs.value, "kakao_account").fields, "email") != JNull
    && Lookup(attrs.value, "id") != JNull
    && Lookup(Lookup(Lookup(attrs.value, "kakao_account").fields, "profile").fields, "thumbnail_image_url") != JNull
  }

  /** The Kakao strategy hands the response body to `makeOAuth2User` with no
      null check, so a null body fails as a null dereference. */
  function KakaoFetch(body: Option<Object>): (r: Result<Identity, LoadError>)
    ensures body.None? ==> r == Err(NullPointer("attributes"))
    ensures body.Some? ==> r == KakaoUser(body)
  {
    KakaoUser(body)
  }

  // ---------------------------------------------------------------------
  // Naver

  /** `NaverLoadStrategy.makeOAuth2User`: `id`, `email`, `profile_image`, in that order. */
  function NaverUser(attrs: Option<Object>): (r: Result<Identity, LoadError>)
    ensures r.Ok? <==> NaverShaped(attrs)
    ensures r.Ok? ==>
      && r.value.socialType == Naver
      && r.value.socialId == Render(Lookup(attrs.value, "id"))
      && r.value.email == Render(Lookup(attrs.value, "email"))
      && r.value.profileImgUrl == Render(Lookup(attrs.value, "profile_image"))
    ensures r != Err(LoginDisable)
  {
    match attrs
    case None => Err(NullPointer("attributes"))
    case Some(a) =>
      match ToStr(Lookup(a, "id"))
      case None => Err(NullPointer("id"))
      case Some(id) =>
        match ToStr(Lookup(a, "email"))
        case None => Err(NullPointer("email"))
        case Some(email) =>
          match ToStr(Lookup(a, "profile_image"))
          case None => Err(NullPointer("profile_image"))
          case Some(url) => Ok(Identity(id, email, url, Naver))
  }

  predicate NaverShaped(attrs: Option<Object>)
  {
    && attrs.Some?
    && Lookup(attrs.value, "id") != JNull
    && Lookup(attrs.value, "email") != JNull
    && Lookup(attrs.value, "profile_image") != JNull
  }

  /** The body handling of `NaverLoadStrategy.sendRequestToSocialApi`: a null
      body throws `LoginDisableException` before anything is read; otherwise the
      `response` member is cast to a map and normalised. */
  function NaverFetch(body: Option<Object>): (r: Result<Identity, LoadError>)
    ensures r == Err(LoginDisable) <==> body.None?
    ensures body.Some? && Lookup(body.value, "response").JObj? ==>
      r == NaverUser(Some(Lookup(body.value, "response").fields))
    ensures body.Some? && Lookup(body.value, "response") == JNull ==> r == Err(NullPointer("attributes"))
    ensures body.Some? && !Lookup(body.value, "response").JObj? && Lookup(body.value, "response") != JNull ==>
      r == Err(ClassCast("response"))
  {
    match body
    case None => Err(LoginDisable)
    case Some(b) =>
      match AsObject(Lookup(b, "response"))
      case Err(_) => Err(ClassCast("response"))
      case Ok(attrs) => NaverUser(attrs)
  }

  // ---------------------------------------------------------------------
  // Dispatch and Account building

  /** `SocialLoadStrategy` selected by the provider. */
  function FetchIdentity(provider: SocialType, body: Option<Object>): (r: Result<Identity, LoadError>)
    ensures r.Ok? ==> r.value.socialType == provider
  {
    match provider
    case Kakao => KakaoFetch(body)
    case Naver => NaverFetch(body)
  }

  /** `makeAccount`: copies id, email and image unchanged; the social type is
      the strategy's own whatever the identity says. */
  function MakeAccount(provider: SocialType, user: Identity): (a: AccountDraft)
    ensures a.socialType == provider
    ensures a.socialId == user.socialId && a.email == user.email && a.profileImageUrl == user.profileImgUrl
  {
    AccountDraft(user.socialId, provider, user.email, user.profileImgUrl)
  }

  // ---------------------------------------------------------------------
  // Properties

  /** A Kakao user-info body carrying the identity's fields, with the numeric
      `id` Kakao sends and an optional nickname in the profile. */
  function KakaoBody(id: int, email: string, imageUrl: string, nickname: Option<string>): Object
  {
    var nick := if nickname.Some? then [Field("nickname", JStr(nickname.value))] else [];
    [ Field("id", JNum(id)),
      Field("kakao_account", JObj([
        Field("email", JStr(email)),
        Field("profile", JObj(nick + [Field("thumbnail_image_url", JStr(imageUrl))]))]))]
  }

  /** Normalising a well-formed Kakao body gives the decimal id, the email and
      the thumbnail, whether or not a nickname is present. */
  lemma KakaoBodyNormalises(id: int, email: string, imageUrl: string, nickname: Option<string>)
    ensures KakaoFetch(Some(KakaoBody(id, email, imageUrl, nickname)))
      == Ok(Identity(JavaLong.ToDecimal(id), email, imageUrl, Kakao))
  {
    var nick: Object := if nickname.Some? then [Field("nickname", JStr(nickname.value))] else [];
    var profile := nick + [Field("thumbnail_image_url", JStr(imageUrl))];
    var account := [Field("email", JStr(email)), Field("profile", JObj(profile))];
    var body := KakaoBody(id, email, imageUrl, nickname);
    LookupFirst(body, "id", 0);
    LookupFirst(body, "kakao_account", 1);
    LookupFirst(account, "email", 0);
    LookupFirst(account, "profile", 1);
    LookupFirst(profile, "thumbnail_image_url", |nick|);
  }

  /** The Kakao body of the worked example normalises to its flat identity. */
  lemma KakaoExample()
    ensures KakaoFetch(Some([
      Field("id", JStr("123")),
      Field("kakao_account", JObj([
        Field("email", JStr("a@b.com")),
        Field("profile", JObj([Field("thumbnail_image_url", JStr("http://x/y.jpg"))]))]))]))
      == Ok(Identity("123", "a@b.com", "http://x/y.jpg", Kakao))
  {
  }

  /** A Naver body: envelope fields around the `response` object. */
  function NaverBody(id: string, email: string, imageUrl: string, nickname: string): Object
  {
    [ Field("resultcode", JStr("00")),
      Field("message", JStr("success")),
      Field("response", JObj([
        Field("id", JStr(id)),
        Field("nickname", JStr(nickname)),
        Field("profile_image", JStr(imageUrl)),
        Field("email", JStr(email))]))]
  }

  /** Normalising a well-formed Naver body reads the `response` object and
      gives back its id, email and image whatever the nickname. */
  lemma NaverBodyNormalises(id: string, email: string, imageUrl: string, nickname: string)
    ensures NaverFetch(Some(NaverBody(id, email, imageUrl, nickname))) == Ok(Identity(id, email, imageUrl, Naver))
  {
    var body := NaverBody(id, email, imageUrl, nickname);
    var inner := Lookup(body, "response");
    LookupFirst(body, "response", 2);
    LookupFirst(inner.fields, "id", 0);
    LookupFirst(inner.fields, "profile_image", 2);
    LookupFirst(inner.fields, "email", 3);
  }

  /** Naver reads nothing from the top level besides `response`: fields placed
      there with the identity's keys are ignored. */
  lemma NaverIgnoresTopLevelFields(inner: Object, id: Json, email: Json)
    ensures var body := [Field("id", id), Field("email", email), Field("response", JObj(inner))];
      NaverFetch(Some(body)) == NaverUser(Some(inner))
  {
    LookupFirst([Field("id", id), Field("email", email), Field("response", JObj(inner))], "response", 2);
  }

  /** Building the Account from a fetched identity gives back exactly the
      identity's fields, under the provider it came from. */
  lemma FetchedAccountMatchesIdentity(provider: SocialType, body: Option<Object>)
    requires FetchIdentity(provider, body).Ok?
    ensures var user := FetchIdentity(provider, body).value;
      MakeAccount(provider, user) == AccountDraft(user.socialId, user.socialType, user.email, user.profileImgUrl)
  {
  }
}

=== FILE: store_service.dfy ===
/** `StoreService`: a member marks a store as a favourite ("zzim"). Stores are
    found or created by their encoded place id; a member may mark a store only
    once. Repositories are maps; each call is one transaction, so a thrown
    exception leaves the state as it was. */
module StoreService {
  import opened Wrappers
  import opened Domain
  import Utf8
  import Base64

  /** The member as this service sees it: its favourites, in the order added. */
  datatype MemberRecord = MemberRecord(memberId: int, zzimStores: seq<int>)

  /** A store, keyed by its encoded place id, with its favourites in the order added. */
  datatype Store = Store(storeId: int, encodedPlaceId: string, zzimStores: seq<int>)

  /** A favourite (`MemberZzimStore`) linking a member to a store. */
  datatype ZzimStore = ZzimStore(zzimId: int, memberId: int, storeId: int)

  /** Members by id, stores by encoded place id, favourites by id, and the next
      ids the database assigns. */
  datatype StoreState = StoreState(
    members: map<int, MemberRecord>,
    stores: map<string, Store>,
    zzims: map<int, ZzimStore>,
    nextStoreId: int,
    nextZzimId: int)

  /** What `create` and `find` throw. */
  datatype StoreError = EntityNotFound(code: ErrorCode) | EntityAlreadyExists(code: ErrorCode)

  /** The member has marked the store with this id. */
  predicate HasZzim(st: StoreState, memberId: int, storeId: int)
  {
    exists z :: z in st.zzims && st.zzims[z].memberId == memberId && st.zzims[z].storeId == storeId
  }

  /** Each store is filed under its own key, and store ids are distinct and
      below the next id. */
  ghost predicate StoresKeyed(st: StoreState)
  {
    && (forall k :: k in st.stores ==> st.stores[k].encodedPlaceId == k && st.stores[k].storeId < st.nextStoreId)
    && (forall k1, k2 :: k1 in st.stores && k2 in st.stores && st.stores[k1].storeId == st.stores[k2].storeId ==> k1 == k2)
  }

  /** Each favourite is filed under its own id, below the next id, and links an
      existing member to a store id already handed out. */
  ghost predicate ZzimsKeyed(st: StoreState)
  {
    && (forall m :: m in st.members ==> st.members[m].memberId == m)
    && (forall z :: z in st.zzims ==>
          && st.zzims[z].zzimId == z && z < st.nextZzimId
          && st.zzims[z].memberId in st.members && st.zzims[z].storeId < st.nextStoreId)
  }

  /** No (member, store) pair is marked twice. */
  ghost predicate PairsUnique(st: StoreState)
  {
    forall z1, z2 :: (z1 in st.zzims && z2 in st.zzims && st.zzims[z1].memberId == st.zzims[z2].memberId
      && st.zzims[z1].storeId == st.zzims[z2].storeId) ==> z1 == z2
  }

  /** Each member's and each store's collection lists exactly its favourites. */
  ghost predicate CollectionsExact(st: StoreState)
  {
    && (forall m, z :: m in st.members ==> (z in st.members[m].zzimStores <==> z in st.zzims && st.zzims[z].memberId == m))
    && (forall k, z :: k in st.stores ==> (z in st.stores[k].zzimStores <==> z in st.zzims && st.zzims[z].storeId == st.stores[k].storeId))
  }

  /** The store repository and the favourite repository agree with the
      collections on both sides, and no (member, store) pair is marked twice. */
  ghost predicate Valid(st: StoreState)
  {
    StoresKeyed(st) && ZzimsKeyed(st) && PairsUnique(st) && CollectionsExact(st)
  }

  /** The store key for a place id: `Base64.getEncoder().encodeToString(placeId.getBytes())`. */
  function EncodePlaceId(placeId: string): (key: string)
    ensures Base64.Decode(key) == Some(Utf8.Encode(placeId))
    ensures Utf8.Decode(Base64.Decode(key).value) == Some(placeId)
    ensures forall text :: Base64.Decode(text) == Some(Utf8.Encode(placeId)) ==> text == key
  {
    Utf8.RoundTrip(placeId);
    Base64.RoundTrip(Utf8.Encode(placeId));
    forall text | Base64.Decode(text) == Some(Utf8.Encode(placeId))
      ensures text == Base64.Encode(Utf8.Encode(placeId))
    {
      Base64.DecodeCanonical(text);
    }
    Base64.Encode(Utf8.Encode(placeId))
  }

  /** Equal place ids share a store key and distinct place ids never do. */
  lemma EncodePlaceIdInjective(a: string, b: string)
    ensures EncodePlaceId(a) == EncodePlaceId(b) <==> a == b
  {
  }

  /** `createOrFindExistingStore(key)`: the stored store when the key is known,
      otherwise a new store with no favourites saved under the key. */
  function CreateOrFindExistingStore(st: StoreState, key: string): (r: (StoreState, Store))
    ensures key in st.stores ==> r == (st, st.stores[key])
    ensures key !in st.stores ==>
      && r.1 == Store(st.nextStoreId, key, [])
      && r.0 == st.(stores := st.stores[key := r.1], nextStoreId := st.nextStoreId + 1)
    ensures key in r.0.stores && r.0.stores[key] == r.1
  {
    if key in st.stores then (st, st.stores[key])
    else
      var store := Store(st.nextStoreId, key, []);
      (st.(stores := st.stores[key := store], nextStoreId := st.nextStoreId + 1), store)
  }

  /** Saving a new favourite for an existing member and store
      (`memberZzimStoreRepository.save`, `store.addZzimStore`,
      `member.addZzimStore`). */
  function AddZzim(st: StoreState, memberId: int, key: string): (r: (StoreState, int))
    requires memberId in st.members && key in st.stores
    ensures r.1 == st.nextZzimId && r.0.nextZzimId == r.1 + 1 && r.0.nextStoreId == st.nextStoreId
    ensures r.0.zzims == st.zzims[r.1 := ZzimStore(r.1, memberId, st.stores[key].storeId)]
    ensures r.0.stores.Keys == st.stores.Keys && r.0.members.Keys == st.members.Keys
    ensures r.0.stores[key] == st.stores[key].(zzimStores := st.stores[key].zzimStores + [r.1])
    ensures r.0.members[memberId] == st.members[memberId].(zzimStores := st.members[memberId].zzimStores + [r.1])
    ensures forall k :: k in st.stores && k != key ==> r.0.stores[k] == st.stores[k]
    ensures forall m :: m in st.members && m != memberId ==> r.0.members[m] == st.members[m]
  {
    var id := st.nextZzimId;
    var store := st.stores[key];
    var member := st.members[memberId];
    var st' := st.(
      zzims := st.zzims[id := ZzimStore(id, memberId, store.storeId)],
      stores := st.stores[key := store.(zzimStores := store.zzimStores + [id])],
      members := st.members[memberId := member.(zzimStores := member.zzimStores + [id])],
      nextZzimId := id + 1);
    (st', id)
  }

  /** `create(memberId, placeId)`: returns the new favourite's id. The member
      must exist; the store is found or created; the pair must not be marked
      already; then the new favourite is added on both sides. */
  function Create(st: StoreState, memberId: int, placeId: string): (r: Result<(StoreState, int), StoreError>)
    ensures memberId !in st.members ==> r == Err(EntityNotFound(NOT_FOUND_MEMBER))
    ensures var key := EncodePlaceId(placeId);
      memberId in st.members && key in st.stores && HasZzim(st, memberId, st.stores[key].storeId) ==>
        r == Err(EntityAlreadyExists(ALREADY_MEMBER_ZZIM_STORE))
    // an existing member marking a place it has not marked always succeeds
    ensures var key := EncodePlaceId(placeId);
      (Valid(st) && memberId in st.members && !(key in st.stores && HasZzim(st, memberId, st.stores[key].storeId))) ==> r.Ok?
    ensures r.Ok? ==>
      var key := EncodePlaceId(placeId);
      var (st1, store) := CreateOrFindExistingStore(st, key);
      && memberId in st.members && !HasZzim(st1, memberId, store.storeId)
      && r.value == AddZzim(st1, memberId, key)
    ensures r.Ok? ==>
      var (st2, id) := r.value;
      && EncodePlaceId(placeId) in st2.stores
      && id in st2.zzims && st2.zzims[id] == ZzimStore(id, memberId, st2.stores[EncodePlaceId(placeId)].storeId)
  {
    var key := EncodePlaceId(placeId);
    if memberId !in st.members then Err(EntityNotFound(NOT_FOUND_MEMBER))
    else
      var (st1, store) := CreateOrFindExistingStore(st, key);
      if HasZzim(st1, memberId, store.storeId) then Err(EntityAlreadyExists(ALREADY_MEMBER_ZZIM_STORE))
      else Ok(AddZzim(st1, memberId, key))
  }

  /** `find(page, perSize, memberId)` without paging or ordering: the member's favourites. */
  function Find(st: StoreState, memberId: int): (r: Result<set<ZzimStore>, StoreError>)
    ensures memberId !in st.members <==> r == Err(EntityNotFound(NOT_FOUND_MEMBER))
    ensures r.Ok? <==> memberId in st.members
    ensures r.Ok? ==> forall z :: z in r.value <==> z in st.zzims.Values && z.memberId == memberId
  {
    if memberId !in st.members then Err(EntityNotFound(NOT_FOUND_MEMBER))
    else Ok(set z | z in st.zzims.Values && z.memberId == memberId)
  }

  // ---------------------------------------------------------------------
  // Properties

  /** Finding or creating a second time with the same key creates nothing and
      returns the same store. */
  lemma CreateOrFindIdempotent(st: StoreState, key: string)
    ensures var (st1, store) := CreateOrFindExistingStore(st, key);
      CreateOrFindExistingStore(st1, key) == (st1, store)
  {
  }

  /** Finding or creating keeps the stores well formed. */
  lemma CreateOrFindPreservesValid(st: StoreState, key: string)
    requires Valid(st)
    ensures Valid(CreateOrFindExistingStore(st, key).0)
  {
    var (st1, store) := CreateOrFindExistingStore(st, key);
    if key !in st.stores {
      forall k, z | k in st1.stores
        ensures z in st1.stores[k].zzimStores <==> z in st1.zzims && st1.zzims[z].storeId == st1.stores[k].storeId
      {
        if k != key {
          assert st1.stores[k] == st.stores[k];
        }
      }
    }
  }

  /** Adding a favourite for a pair not yet marked keeps the state well formed. */
  lemma AddZzimPreservesValid(st: StoreState, memberId: int, key: string)
    requires Valid(st) && memberId in st.members && key in st.stores
    requires !HasZzim(st, memberId, st.stores[key].storeId)
    ensures Valid(AddZzim(st, memberId, key).0)
  {
    var (st2, id) := AddZzim(st, memberId, key);
    var sid := st.stores[key].storeId;
    assert id !in st.zzims;
    assert StoresKeyed(st2);
    assert ZzimsKeyed(st2);
    forall z1, z2 | z1 in st2.zzims && z2 in st2.zzims && st2.zzims[z1].memberId == st2.zzims[z2].memberId
      && st2.zzims[z1].storeId == st2.zzims[z2].storeId
      ensures z1 == z2
    {
    }
    AddZzimMemberLists(st, memberId, key);
    AddZzimStoreLists(st, memberId, key);
  }

  lemma AddZzimMemberLists(st: StoreState, memberId: int, key: string)
    requires Valid(st) && memberId in st.members && key in st.stores
    ensures var st2 := AddZzim(st, memberId, key).0;
      forall m, z :: m in st2.members ==> (z in st2.members[m].zzimStores <==> z in st2.zzims && st2.zzims[z].memberId == m)
  {
    var (st2, id) := AddZzim(st, memberId, key);
    forall m, z | m in st2.members
      ensures z in st2.members[m].zzimStores <==> z in st2.zzims && st2.zzims[z].memberId == m
    {
      if m != memberId {
        assert id in st.members[m].zzimStores ==> id in st.zzims;
      }
    }
  }

  lemma AddZzimStoreLists(st: StoreState, memberId: int, key: string)
    requires Valid(st) && memberId in st.members && key in st.stores
    ensures var st2 := AddZzim(st, memberId, key).0;
      forall k, z :: k in st2.stores ==> (z in st2.stores[k].zzimStores <==> z in st2.zzims && st2.zzims[z].storeId == st2.stores[k].storeId)
  {
    var (st2, id) := AddZzim(st, memberId, key);
    forall k, z | k in st2.stores
      ensures z in st2.stores[k].zzimStores <==> z in st2.zzims && st2.zzims[z].storeId == st2.stores[k].storeId
    {
      if k != key {
        assert id in st.stores[k].zzimStores ==> id in st.zzims;
        assert st.stores[k].storeId != st.stores[key].storeId;
      }
    }
  }

  /** A successful `create` keeps the repositories and collections consistent
      and every (member, store) pair unique. */
  lemma CreatePreservesValid(st: StoreState, memberId: int, placeId: string)
    requires Valid(st)
    ensures Create(st, memberId, placeId).Ok? ==> Valid(Create(st, memberId, placeId).value.0)
  {
    var key := EncodePlaceId(placeId);
    if Create(st, memberId, placeId).Ok? {
      CreateOrFindPreservesValid(st, key);
      var st1 := CreateOrFindExistingStore(st, key).0;
      AddZzimPreservesValid(st1, memberId, key);
    }
  }

  /** Marking the same place twice fails the second time with
      `ALREADY_MEMBER_ZZIM_STORE`. */
  lemma CreateTwiceRejected(st: StoreState, memberId: int, placeId: string)
    requires Valid(st)
    requires Create(st, memberId, placeId).Ok?
    ensures Create(Create(st, memberId, placeId).value.0, memberId, placeId) == Err(EntityAlreadyExists(ALREADY_MEMBER_ZZIM_STORE))
  {
    var key := EncodePlaceId(placeId);
    var (st2, id) := Create(st, memberId, placeId).value;
    assert key in st2.stores && memberId in st2.members;
    assert st2.zzims[id].memberId == memberId && st2.zzims[id].storeId == st2.stores[key].storeId;
    assert HasZzim(st2, memberId, st2.stores[key].storeId);
  }

  /** The new favourite is among the member's favourites afterwards. */
  lemma CreatedZzimIsFound(st: StoreState, memberId: int, placeId: string)
    requires Create(st, memberId, placeId).Ok?
    ensures var (st2, id) := Create(st, memberId, placeId).value;
      && Find(st2, memberId).Ok?
      && ZzimStore(id, memberId, st2.stores[EncodePlaceId(placeId)].storeId) in Find(st2, memberId).value
  {
    var (st2, id) := Create(st, memberId, placeId).value;
    assert st2.zzims[id] in st2.zzims.Values;
  }
}

=== FILE: utf8.dfy ===
/** `String.getBytes()` with the UTF-8 default charset, over strings of Unicode
    scalar values, and the decoder that inverts it. */
module Utf8 {
  import opened Wrappers

  type Byte = b: int | 0 <= b < 256

  /** The one to four bytes UTF-8 writes for one scalar value. */
  function EncodeChar(c: char): (bs: seq<Byte>)
    ensures 1 <= |bs| <= 4
  {
    // v = ((v3 * 64 + x2) * 64 + x1) * 64 + x0, each x a six-bit group
    var v := c as int;
    var x0, v1 := v % 64, v / 64;
    var x1, v2 := v1 % 64, v1 / 64;
    var x2, v3 := v2 % 64, v2 / 64;
    if v < 0x80 then [v]
    else if v < 0x800 then [0xC0 + v1, 0x80 + x0]
    else if v < 0x1_0000 then [0xE0 + v2, 0x80 + x1, 0x80 + x0]
    else [0xF0 + v3, 0x80 + x2, 0x80 + x1, 0x80 + x0]
  }

  /** `getBytes` in UTF-8: the characters' encodings, concatenated. */
  function Encode(s: string): (bs: seq<Byte>)
  {
    if |s| == 0 then [] else EncodeChar(s[0]) + Encode(s[1..])
  }

  /** The length of the sequence a lead byte starts. */
  function SequenceLength(lead: Byte): nat
  {
    if lead < 0x80 then 1 else if lead < 0xE0 then 2 else if lead < 0xF0 then 3 else 4
  }

  predicate IsScalar(v: int) {
    0 <= v < 0xD800 || 0xE000 <= v < 0x11_0000
  }

  /** The scalar value the first sequence of `bs` encodes, with the sequence's length. */
  function DecodeChar(bs: seq<Byte>): (r: Option<(char, nat)>)
    requires |bs| > 0
    ensures r.Some? ==> 1 <= r.value.1 <= |bs|
  {
    var n := SequenceLength(bs[0]);
    if |bs| < n then None
    else
      var b0: int := bs[0];
      var b1: int := if n >= 2 then bs[1] else 0;
      var b2: int := if n >= 3 then bs[2] else 0;
      var b3: int := if n >= 4 then bs[3] else 0;
      var v :=
        if n == 1 then b0
        else if n == 2 then (b0 - 0xC0) * 64 + (b1 - 0x80)
        else if n == 3 then ((b0 - 0xE0) * 64 + (b1 - 0x80)) * 64 + (b2 - 0x80)
        else (((b0 - 0xF0) * 64 + (b1 - 0x80)) * 64 + (b2 - 0x80)) * 64 + (b3 - 0x80);
      if IsScalar(v) then Some((v as char, n)) else None
  }

  function Decode(bs: seq<Byte>): (r: Option<string>)
    decreases |bs|
  {
    if |bs| == 0 then Some([])
    else
      match DecodeChar(bs)
      case None => None
      case Some((c, n)) =>
        match Decode(bs[n..])
        case None => None
        case Some(rest) => Some([c] + rest)
  }

  /** One scalar value's bytes decode back to it, whatever follows them. */
  lemma CharRoundTrip(c: char, rest: seq<Byte>)
    ensures DecodeChar(EncodeChar(c) + rest) == Some((c, |EncodeChar(c)|))
  {
    var v := c as int;
    var x0, v1 := v % 64, v / 64;
    var x1, v2 := v1 % 64, v1 / 64;
    var x2, v3 := v2 % 64, v2 / 64;
    assert v == v1 * 64 + x0 && v1 == v2 * 64 + x1 && v2 == v3 * 64 + x2;
    var bs := EncodeChar(c) + rest;
    if v < 0x80 {
    } else if v < 0x800 {
      assert bs[0] == 0xC0 + v1 && bs[1] == 0x80 + x0;
    } else if v < 0x1_0000 {
      assert bs[0] == 0xE0 + v2 && bs[1] == 0x80 + x1 && bs[2] == 0x80 + x0;
    } else {
      assert bs[0] == 0xF0 + v3 && bs[1] == 0x80 + x2 && bs[2] == 0x80 + x1 && bs[3] == 0x80 + x0;
    }
  }

  /** Decoding undoes encoding, so `getBytes` is injective on scalar strings. */
  lemma {:induction false} RoundTrip(s: string)
    ensures Decode(Encode(s)) == Some(s)
  {
    if |s| > 0 {
      var e := EncodeChar(s[0]);
      CharRoundTrip(s[0], Encode(s[1..]));
      assert (e + Encode(s[1..]))[|e|..] == Encode(s[1..]);
      RoundTrip(s[1..]);
      assert Encode(s) == e + Encode(s[1..]);
      assert [s[0]] + s[1..] == s;
    }
  }
}

=== FILE: wrappers.dfy ===
/** Failure-carrying datatypes used throughout the model in place of Java's
    `null` and thrown exceptions. */
module Wrappers {

  /** A possibly absent value: `None` stands for Java's `null`. */
  datatype Option<+T> = None | Some(value: T)

  /** The outcome of an operation that either returns a value or throws. */
  datatype Result<+R, +E> = Ok(value: R) | Err(error: E)
}
